=== FILE: README.md ===
# MinFrameworkCFG configuration core, in Dafny

This project models the core of MinFrameworkCFG, a small Java library that
loads configuration from several sources, deep-merges them so that later
sources override earlier ones, serves dot-path reads with type coercion, and
re-merges when a watched file changes. The model covers three parts.

- **The map utilities** (`Maps`): `deepMerge`, `getByPath` and `coerce`.
- **The environment source** (`EnvConfigSource`). It selects variables by
  prefix, strips the prefix, turns `__` into `.`, lower-cases the result
  and inserts the value as a string leaf of nested maps.
- **The manager** (`ConfigManager`). This covers the builder, construction,
  `reload` (a left fold of `deepMerge` over the sources, aborted by the
  first source that throws), listener notification, the watch-path
  selection of `startReloader`, one batch of the watcher's loop, `close`,
  the reads `find` and `get` in all their variants, and listener
  registration and removal.

A configuration value is the datatype `Values.Value`: a string, an integer
together with the class it is boxed in (`Integer`, `Long` or `BigInteger`),
a boolean, `null`, a list, or a map. A map is an association list, so it
keeps the insertion order of a `LinkedHashMap`. Everything is immutable:
each operation of the manager returns the next manager record.

Several things are inputs to the model rather than computed by it:

- the process environment, as a sequence of (name, value) pairs in the
  environment map's iteration order;
- the result of each source's `load`, as a `LoadOutcome` per source (a map,
  `null`, or an exception);
- whether each listener throws, as a function of the listener and the
  snapshot;
- Jackson's `convertValue`, as a partial function from a value and a target
  type to a value;
- for a target class other than the ones the model names (`Number`,
  `CharSequence`, `Comparable`), the runtime classes assignable to it, so
  that `isInstance` is decided by the value's runtime class;
- `Path.toAbsolutePath()`, as a function on path strings that stands for
  the working directory.

Modules, one per file:

| file | module | what it holds |
|---|---|---|
| wrappers.dfy | `Wrappers` | `Option` and `Result` |
| values.dfy | `Values` | values, maps as association lists, `Lookup`/`Put` (`get`/`put` of a `LinkedHashMap`) |
| javastrings.dfy | `JavaStrings` | the `String` methods the core relies on: `split("\\.")`, `replace("__", ".")`, `toLowerCase(Locale.ROOT)`, `startsWith`, `String.valueOf(long)` |
| maps.dfy | `Maps` | `deepMerge`, `getByPath`, `coerce` |
| mergelaws.dfy | `MergeLaws` | what `deepMerge` guarantees |
| lookuplaws.dfy | `LookupLaws` | what path lookup and coercion guarantee |
| configsource.dfy | `ConfigSource` | a source as the manager sees it, and a load's outcome |
| envsource.dfy | `EnvConfigSource` | the environment source |
| envlaws.dfy | `EnvLaws` | what the environment source guarantees |
| manager.dfy | `ConfigManager` | the manager and its builder |

Three behaviours of the code are easy to miss, and the model keeps them.

- **Exceptions during a watcher-triggered reload end the watch loop.** The
  reload callback catches only `IOException`
  (src/main/java/com/sparky/config/ConfigManager.java:65). Any other
  exception leaves `runLoop`, which catches only `IOException` and
  `InterruptedException`, so the watch loop ends
  (src/main/java/com/sparky/config/reload/HotReloader.java:39-69). One such
  exception is the out-of-bounds index that `insert` raises for a variable
  like `APP___`. The model gives the watcher a `Crashed` state for this
  case.
- **Listener registrations are a list.** `listeners` is a
  `CopyOnWriteArrayList` (src/main/java/com/sparky/config/ConfigManager.java:31),
  so a listener registered twice is called twice, and
  `removeChangeListener` removes one registration
  (src/main/java/com/sparky/config/ConfigManager.java:95-96).
- **Every path made only of dots reads the root.** `getByPath` returns the
  root for the empty path (src/main/java/com/sparky/config/util/Maps.java:28),
  and `split` drops empty trailing segments, so `.` and `..` have no segment
  at all and the loop returns the root as well
  (src/main/java/com/sparky/config/util/Maps.java:29-36).

## Model

| member | source | states |
|---|---|---|
| Values.Lookup | src/main/java/com/sparky/config/util/Maps.java:33 | A key is found exactly when it is one of the map's keys, and what is found is the value stored with it. |
| Values.Put | src/main/java/com/sparky/config/util/Maps.java:18-20 | After the put, the key reads the new value and every other key reads what it read before; an existing key keeps its place, and a new key goes last (the `LinkedHashMap` order). |
| Values.PutShape | src/main/java/com/sparky/config/util/Maps.java:18-20 | A new key is appended at the end; putting the value a key already holds changes nothing. |
| Values.PutUnique | src/main/java/com/sparky/config/util/Maps.java:18-20 | A put never creates a duplicate key. |
| JavaStrings.ReplaceDoubleUnderscore | src/main/java/com/sparky/config/source/EnvConfigSource.java:29 | `replace("__", ".")` never makes the string longer and leaves no `__` behind. |
| JavaStrings.ReplaceFirstPair | src/main/java/com/sparky/config/source/EnvConfigSource.java:29 | `replace` works from left to right: the text before the first `__` is kept, that `__` becomes `.`, and the search resumes after it. |
| JavaStrings.ReplaceTripleExample | src/main/java/com/sparky/config/source/EnvConfigSource.java:29 | `a___` becomes `a._`: the occurrences do not overlap. |
| JavaStrings.ExpandReplaceRoundTrip | src/main/java/com/sparky/config/source/EnvConfigSource.java:29 | For a name without dots, expanding each `.` back into `__` gives the original name, so the rewrite loses nothing. |
| JavaStrings.ToLowerRoot | src/main/java/com/sparky/config/source/EnvConfigSource.java:29 | `toLowerCase(Locale.ROOT)` keeps the length, and each character becomes its lower-case form (ASCII capitals to small letters, everything else unchanged). |
| JavaStrings.ToLowerRootIdempotent | src/main/java/com/sparky/config/source/EnvConfigSource.java:29 | Lower-casing leaves no ASCII capital letter, and a second lower-casing changes nothing. |
| JavaStrings.SplitDots | src/main/java/com/sparky/config/util/Maps.java:29 | No segment of `split("\\.")` contains a dot, and when the input has a dot the last segment is not empty. |
| JavaStrings.SplitDotsJoin | src/main/java/com/sparky/config/util/Maps.java:29 | Joining the segments with dots gives the path without its trailing dots, so the split loses nothing else. |
| JavaStrings.JoinSplitDots | src/main/java/com/sparky/config/util/Maps.java:29 | Dot-free segments whose last segment is non-empty (or which form one single segment) survive a join followed by a split. |
| JavaStrings.SplitDotsEmpty | src/main/java/com/sparky/config/source/EnvConfigSource.java:36 | The split has no segment at all exactly when the path is one or more dots. |
| JavaStrings.IntToStringRoundTrip | src/main/java/com/sparky/config/util/Maps.java:43 | The decimal spelling of a number is an optional minus sign followed by digits, and it parses back to the same number. |
| Maps.Navigate | src/main/java/com/sparky/config/util/Maps.java:30-36 | Walking a path from a non-null value never gives `null`, and a non-empty walk succeeds only from a map. |
| Maps.GetByPath | src/main/java/com/sparky/config/util/Maps.java:27-37 | The empty path reads the root itself, and a lookup never yields `null`: absent and `null` are the same outcome. |
| Maps.IsInstance | src/main/java/com/sparky/config/util/Maps.java:41 | `isInstance` is false for `null` and true for every non-null value against `Object`. An `Integer` or a `Long` is exactly a number boxed so, and nothing else. `String`, `Boolean`, `Map` and `List` take exactly strings, booleans, maps and lists. Any other class takes exactly the runtime classes assignable to it. |
| Maps.Coerce | src/main/java/com/sparky/config/util/Maps.java:39-49 | `null` stays `null`. A value whose runtime class is assignable to the type comes back unchanged: a `Long` holding 5 read as `Long`, an `Integer` read as `Number`. A `String` target always succeeds, with `String.valueOf`. Otherwise the converter's value is returned. The coercion fails exactly when the value is non-null, not an instance, the target is not `String`, and the converter rejects it; the error names that value and that type. |
| Maps.DeepMerge | src/main/java/com/sparky/config/util/Maps.java:11-24 | The merge holds a key exactly when the base or `add` holds it: no key is lost and none is invented. |
| Maps.MergeFromDomain | src/main/java/com/sparky/config/util/Maps.java:12-22 | From position `i` on, the merge loop keeps every key it starts with and adds exactly the keys of the remaining entries of `add`. |
| Maps.Render | src/main/java/com/sparky/config/util/Maps.java:43 | `String.valueOf` gives a string as it is, a number as a decimal spelling that parses back to it whatever its box, `true`/`false` for booleans, `null` for null, and brackets around a list and braces around a map. |
| Maps.RenderList | src/main/java/com/sparky/config/util/Maps.java:43 | `String.valueOf` of a list is the texts of its elements, in order, separated by `, `, inside brackets. |
| Maps.RenderMap | src/main/java/com/sparky/config/util/Maps.java:43 | `String.valueOf` of a map is `key=value` for each entry, in insertion order, separated by `, `, inside braces. |
| Maps.RenderExample | src/main/java/com/sparky/config/util/Maps.java:43 | `[y, true]` for a list of a string and a boolean, and `{b=[y, true]}` for a map holding it. |
| Maps.CoercionMessage | src/main/java/com/sparky/config/util/Maps.java:47 | The message of a failed coercion contains the value's `String.valueOf` after `Cannot convert value '` and ends with the type's simple name. |
| MergeLaws.MergeKeys | src/main/java/com/sparky/config/util/Maps.java:11-24 | The merged keys are the base's keys in their order, followed by the keys new in `add` in `add`'s order; a key is in the result exactly when it is in either input. |
| MergeLaws.MergeLookup | src/main/java/com/sparky/config/util/Maps.java:12-21 | A key absent from `add` keeps its base value; a key holding maps on both sides holds their recursive merge; any other key of `add` holds `add`'s value, whatever the base held. |
| MergeLaws.MergeRightUnit | src/main/java/com/sparky/config/util/Maps.java:12-23 | Merging in the empty map gives the base back. |
| MergeLaws.MergeLeftUnit | src/main/java/com/sparky/config/util/Maps.java:12-23 | Merging a map into the empty map gives that map back. |
| MergeLaws.MergeIdempotent | src/main/java/com/sparky/config/util/Maps.java:11-24 | Merging a well-formed map with itself gives it back. |
| MergeLaws.MergeWellFormed | src/main/java/com/sparky/config/util/Maps.java:11-24 | Merging two maps with unique keys at every depth gives such a map. |
| MergeLaws.OverrideLaw | src/main/java/com/sparky/config/util/Maps.java:11-37 | If a path reads a non-map value in `add`, it reads the same value in the merge, whatever the base holds. |
| MergeLaws.NotAssociative | src/main/java/com/sparky/config/util/Maps.java:16-21 | `{x:{p:1}}`, `{x:5}` and `{x:{q:2}}` merge differently depending on grouping, so only the left-to-right fold of the manager is meaningful. |
| LookupLaws.NavigateConcat | src/main/java/com/sparky/config/util/Maps.java:30-36 | Walking `p` then `q` is walking `p + q`, and a walk that found nothing finds nothing however it is extended. |
| LookupLaws.GetByPathSegments | src/main/java/com/sparky/config/util/Maps.java:27-37 | Looking up the dot-join of valid segments walks exactly those segments. |
| LookupLaws.TrailingDotsIgnored | src/main/java/com/sparky/config/util/Maps.java:27-37 | A path reads the same as the path without its trailing dots, and `.` reads the root. |
| LookupLaws.NullIsAbsent | src/main/java/com/sparky/config/util/Maps.java:31-35 | A one-segment lookup finds nothing exactly when the key is missing or holds `null`, and no longer path through such a key finds anything. |
| LookupLaws.CoerceIdempotent | src/main/java/com/sparky/config/util/Maps.java:39-49 | With a converter that honours the target type, a coerced value is `null` or of the type, so coercing it again returns it unchanged. |
| LookupLaws.DottedSplitTrimmed | src/main/java/com/sparky/config/util/Maps.java:29 | A path with a dot splits into the same segments once its trailing dots are trimmed, and the trimmed path is empty exactly when there is no segment. |
| LookupLaws.WideningIsTyped | src/main/java/com/sparky/config/util/Maps.java:41-45 | A converter that boxes numbers as the `Long` asked for honours the target type; an `Integer` 5 read as `Long` becomes the `Long` 5, which a second read returns unchanged. |
| LookupLaws.SupertypeKeepsValue | src/main/java/com/sparky/config/util/Maps.java:41 | A value read as a supertype of its runtime class comes back unchanged whatever the converter; the `Integer` 5432 read as `Number` stays 5432. |
| LookupLaws.NumberAsString | src/main/java/com/sparky/config/util/Maps.java:43 | A number read as a `String` succeeds, whatever its box, and its text parses back to the number. |
| EnvConfigSource.Create | src/main/java/com/sparky/config/source/EnvConfigSource.java:15-16 | A null prefix becomes the empty prefix; any other prefix is kept. |
| EnvConfigSource.CreateDefault | src/main/java/com/sparky/config/source/EnvConfigSource.java:15 | The no-argument source is the source with the empty prefix, the same as the one with a null prefix. |
| EnvConfigSource.Name | src/main/java/com/sparky/config/source/EnvConfigSource.java:18 | The name starts with `env`; it is plain `env` exactly when the prefix is empty, and otherwise it is `env:` followed by the prefix. |
| EnvConfigSource.NameInjective | src/main/java/com/sparky/config/source/EnvConfigSource.java:18 | Two sources have the same `name()` exactly when they have the same prefix, and the name is plain `env` exactly when the prefix is empty. |
| EnvConfigSource.AsSource | src/main/java/com/sparky/config/source/ConfigSource.java:11 | An environment source has no watch path. |
| EnvConfigSource.KeyPath | src/main/java/com/sparky/config/source/EnvConfigSource.java:26-29 | A variable contributes exactly when its name starts with the prefix and is longer than it; its key path is then non-empty. |
| EnvConfigSource.KeyPathShape | src/main/java/com/sparky/config/source/EnvConfigSource.java:27-29 | The key path is the stripped name with `__` rewritten and then lower-cased; it has no capital ASCII letter and no `__` left. |
| EnvConfigSource.KeyPathExample | src/main/java/com/sparky/config/source/EnvConfigSource.java:26-29 | Under prefix `APP_`, `APP_DB__HOST` maps to `db.host`, while `OTHER_HOST` and a bare `APP_` are skipped. |
| EnvConfigSource.InsertParts | src/main/java/com/sparky/config/source/EnvConfigSource.java:37-49 | After the insert, the segments lead to the string value, and every top-level key other than the first segment reads what it read before. |
| EnvConfigSource.Insert | src/main/java/com/sparky/config/source/EnvConfigSource.java:35-50 | The insert fails, with the out-of-bounds index -1 of an empty array, exactly when the path has no segment; otherwise the path's segments lead to the value. |
| EnvConfigSource.LoadFrom | src/main/java/com/sparky/config/source/EnvConfigSource.java:24-31 | The loop throws exactly when some variable's key path has no segment. |
| EnvConfigSource.Load | src/main/java/com/sparky/config/source/EnvConfigSource.java:20-33 | `load()` throws exactly when some variable with the prefix maps to a path of dots only. |
| EnvConfigSource.Outcome | src/main/java/com/sparky/config/source/EnvConfigSource.java:20-33 | The environment source never yields `null`: a load gives a map exactly when it does not throw. |
| EnvLaws.InsertOffSpine | src/main/java/com/sparky/config/source/EnvConfigSource.java:38-49 | Every path that leaves the inserted path's spine reads what it read before, so siblings survive at every depth. |
| EnvLaws.InsertStringLeaves | src/main/java/com/sparky/config/source/EnvConfigSource.java:41-49 | A tree whose leaves are all strings keeps that shape under an insert. |
| EnvLaws.InsertWellFormed | src/main/java/com/sparky/config/source/EnvConfigSource.java:38-49 | An insert keeps keys unique at every depth. |
| EnvLaws.LoadShape | src/main/java/com/sparky/config/source/EnvConfigSource.java:20-33 | Every leaf a successful load produces is a string, and every map in it has unique keys. |
| EnvLaws.Contributing | src/main/java/com/sparky/config/source/EnvConfigSource.java:26-28 | The contributing variables are exactly the variables whose names have a key path. |
| EnvLaws.LoadOnlyContributing | src/main/java/com/sparky/config/source/EnvConfigSource.java:24-31 | Loading the whole environment gives the same result as loading only the contributing variables. |
| EnvLaws.LoadFromSnoc | src/main/java/com/sparky/config/source/EnvConfigSource.java:24-31 | One more variable at the end of the iteration is one more insert applied to the result so far. |
| EnvLaws.LastVariableWins | src/main/java/com/sparky/config/source/EnvConfigSource.java:24-31 | After a successful load, the key path of the variable iterated last holds exactly that variable's value, whatever earlier variables put there. |
| EnvLaws.CrashesIff | src/main/java/com/sparky/config/source/EnvConfigSource.java:29-49 | A variable makes the load throw exactly when it has a key path made only of dots. |
| EnvLaws.LoadExample | src/main/java/com/sparky/config/source/EnvConfigSource.java:20-33 | Under prefix `APP_`, the environment `APP_DB__HOST=foo`, `HOME=/root` loads as `{db={host=foo}}`, and `db.host` reads `foo`. |
| ConfigManager.FoldMerge | src/main/java/com/sparky/config/ConfigManager.java:47-52 | The fold fails exactly when some source throws, and then with the exception of the first source that throws. |
| ConfigManager.Notifications | src/main/java/com/sparky/config/ConfigManager.java:54-56 | Each registration is called once, in registration order, with the new snapshot. |
| ConfigManager.MergeLoads | src/main/java/com/sparky/config/ConfigManager.java:47-52 | The source loop computes the left fold: it skips `null`, merges each map, and stops at the first source that throws. |
| ConfigManager.Notify | src/main/java/com/sparky/config/ConfigManager.java:54-56 | The listener loop calls every registration in order, and one that throws does not stop the later ones. |
| ConfigManager.Reload | src/main/java/com/sparky/config/ConfigManager.java:46-58 | A reload fails exactly when the fold fails: the manager is then unchanged, no listener is called, and the first exception is returned. Otherwise the fold becomes the snapshot, nothing else changes, and every registration is notified in order. The outcome does not depend on whether listeners throw. |
| ConfigManager.FailurePersists | src/main/java/com/sparky/config/ConfigManager.java:48-51 | Once a source has thrown, the sources after it cannot change the reload's outcome. |
| ConfigManager.NullMapSkipped | src/main/java/com/sparky/config/ConfigManager.java:50 | A source that gives `null` is skipped wherever it stands in the list. |
| ConfigManager.SingleSource | src/main/java/com/sparky/config/ConfigManager.java:47-53 | With one source, the reload publishes exactly that source's map. |
| ConfigManager.LaterSourceWins | src/main/java/com/sparky/config/ConfigManager.java:48-52 | When the last source sets a path to a non-map value, the published snapshot reads that value there. |
| ConfigManager.FoldMergeWellFormed | src/main/java/com/sparky/config/ConfigManager.java:47-53 | Sources that load maps with unique keys at every depth publish such a map. |
| ConfigManager.TwoFilesExample | src/main/java/com/sparky/config/ConfigManager.java:47-53 | `{db={host=h1, port=5432}}` followed by `{db={host=h2}}` publishes `{db={host=h2, port=5432}}`. |
| ConfigManager.NewBuilder | src/main/java/com/sparky/config/ConfigManager.java:102-105 | A fresh builder has no source and has hot reload on. |
| ConfigManager.AddSource | src/main/java/com/sparky/config/ConfigManager.java:107 | The source goes after those already added, and the switch is untouched. |
| ConfigManager.AddSources | src/main/java/com/sparky/config/ConfigManager.java:108 | The collection's sources go, in order, after those already added. |
| ConfigManager.HotReload | src/main/java/com/sparky/config/ConfigManager.java:109 | Only the switch changes. |
| ConfigManager.AddSourcesOneByOne | src/main/java/com/sparky/config/ConfigManager.java:107-108 | Adding a collection is adding its sources one at a time. |
| ConfigManager.WatchPaths | src/main/java/com/sparky/config/ConfigManager.java:61-62 | The watched paths are exactly the sources' watch paths, each listed once. |
| ConfigManager.WatchPathsPrefix | src/main/java/com/sparky/config/ConfigManager.java:61-62 | Paths keep the order of their first appearance: more sources only add paths at the end. |
| ConfigManager.StartReloader | src/main/java/com/sparky/config/ConfigManager.java:60-68 | A watcher exists (the constructor calls `startReloader` only with hot reload on) exactly when hot reload is on and some source has a watch path; it watches the distinct paths and is running. |
| ConfigManager.Build | src/main/java/com/sparky/config/ConfigManager.java:37-42 | `build()` fails exactly when the first reload fails, with that reload's exception. Otherwise the manager has the builder's sources, no listener, the fold as its snapshot, and the watcher `startReloader` chooses. |
| ConfigManager.Close | src/main/java/com/sparky/config/ConfigManager.java:98-100 | Closing stops the watcher if there is one and changes nothing else. |
| ConfigManager.CloseIdempotent | src/main/java/com/sparky/config/ConfigManager.java:98-100 | Closing twice is closing once. |
| ConfigManager.Watched | src/main/java/com/sparky/config/reload/HotReloader.java:55-57 | A changed file is watched exactly when some watched path has the same absolute path. |
| ConfigManager.RelativeWatchPathExample | src/main/java/com/sparky/config/reload/HotReloader.java:55-57 | With working directory `/srv`, a change to `/srv/app.yaml` matches the watched relative path `app.yaml`, and a change to another file does not. |
| ConfigManager.OnWatchBatch | src/main/java/com/sparky/config/reload/HotReloader.java:46-69 | A batch reloads exactly when the loop runs and a changed file has the absolute path of a watched file. An I/O failure of that reload changes nothing; any other failure ends the loop; a success publishes like `reload`. A stopped or ended loop does nothing. |
| ConfigManager.MissingMessage | src/main/java/com/sparky/config/ConfigManager.java:81 | The message for a missing value is `Missing config: ` followed by exactly the path asked for. |
| ConfigManager.Find | src/main/java/com/sparky/config/ConfigManager.java:72 | `find` never holds `null`, and the empty path finds the whole snapshot. |
| ConfigManager.FindAs | src/main/java/com/sparky/config/ConfigManager.java:74-78 | The typed `find` is empty exactly when nothing is found. A found value is coerced. A non-null coercion result is returned, and a present result is always such a result. A failed coercion surfaces as its error, and a coercion that gives `null` makes `Optional.of` fail. |
| ConfigManager.Get | src/main/java/com/sparky/config/ConfigManager.java:80-82 | `get` fails with `Missing config: path` exactly when `find` finds nothing. For a found value, a non-null coercion result is returned, a failed coercion surfaces as its error, and a `null` result fails as in `find`. |
| ConfigManager.GetString | src/main/java/com/sparky/config/ConfigManager.java:84 | `getString` fails exactly when nothing is found, and only with the missing-value error. A found string is returned as it is, and any other found value as its `String.valueOf`. |
| ConfigManager.GetStringAnyConverter | src/main/java/com/sparky/config/ConfigManager.java:84 | Reading a `String` gives the same result whatever the converter. |
| ConfigManager.GetInt | src/main/java/com/sparky/config/ConfigManager.java:85 | `getInt` is missing exactly when nothing is found, and returns an `Integer` that is found unchanged. Any other found value goes to the converter: its result is returned, and its rejection surfaces as a conversion error. |
| ConfigManager.GetLong | src/main/java/com/sparky/config/ConfigManager.java:86 | `getLong` is missing exactly when nothing is found, and returns a `Long` that is found unchanged. Any other found value goes to the converter: its result is returned, and its rejection surfaces as a conversion error. |
| ConfigManager.GetBool | src/main/java/com/sparky/config/ConfigManager.java:87 | `getBool` is missing exactly when nothing is found, and returns a boolean that is found unchanged. Any other found value goes to the converter: its result is returned, and its rejection surfaces as a conversion error. |
| ConfigManager.GetTyped | src/main/java/com/sparky/config/ConfigManager.java:80-87 | With a converter that honours types (it returns `null` or an instance of the target), a successful typed read is an instance of the requested type; `getInt` gives an `Integer` and `getLong` a `Long`. |
| ConfigManager.GetRef | src/main/java/com/sparky/config/ConfigManager.java:89-93 | The `TypeReference` read is missing exactly when nothing is found. Otherwise it is exactly the converter's result, with no coercion ladder, and a rejection surfaces as the converter's own error. |
| ConfigManager.AddChangeListener | src/main/java/com/sparky/config/ConfigManager.java:95 | Registering appends one registration at the end, even for a listener already registered; nothing else changes. |
| ConfigManager.RemoveFirst | src/main/java/com/sparky/config/ConfigManager.java:96 | Removing drops one occurrence of the listener (none if it is not registered), and every other registration stays. |
| ConfigManager.RemoveFirstShape | src/main/java/com/sparky/config/ConfigManager.java:96 | The occurrence removed is the first one; the registrations before and after it keep their order. |
| ConfigManager.RemoveChangeListener | src/main/java/com/sparky/config/ConfigManager.java:96 | One registration of the listener goes, the others stay, and the rest of the manager is unchanged. |
| ConfigManager.RemoveAfterAdd | src/main/java/com/sparky/config/ConfigManager.java:95-96 | Registering a new listener and then removing it leaves the manager as it was. |

## Left out

- The file watcher's I/O: `WatchService` registration, polling with a
  timeout, event kinds, overflow events, invalidated keys and the
  150-millisecond debounce sleep (src/main/java/com/sparky/config/reload/HotReloader.java).
  One batch of events is modelled as the list of changed paths it
  resolves to. A failure to register a directory, which also ends the loop,
  is not modelled, and neither is the skipped registration of a watched
  path that has no parent directory.
- Concurrency: `synchronized`, `volatile`, `CopyOnWriteArrayList` and the
  executor thread. Reloads are modelled as sequential, and publication is a
  single update of the record.
- Close: a `close()` that interrupts the debounce sleep is followed by one
  more reload, because the sleep swallows the `InterruptedException` and the
  callback still runs (src/main/java/com/sparky/config/reload/HotReloader.java:63-64).
  In the sequential model a closed watcher reacts to nothing.
- Listener callbacks that register or remove listeners during a
  notification pass are not modelled.
- Jackson's `ObjectMapper` is a parameter of the reads (`Maps.Converter`),
  not a model of Jackson. `get(path, TypeReference)` uses the same target
  types as `get(path, Class)`, since generic types are not modelled.
- The YAML and JSON sources are not part of this model. A source's `load`
  is an input `LoadOutcome`. A missing file, which those sources turn into
  an empty map, is a `Loaded` outcome with no entries.
- Floating-point numbers and `BigDecimal` are not modelled; numbers are
  integers with their box.
- A box is not tied to its range: `Num(n, IntegerBox)` may hold an `n`
  outside 32 bits and `Num(n, LongBox)` one outside 64 bits. No contract
  depends on the range, and numbers come from the inputs.
- ConfigManager.GetTyped and LookupLaws.CoerceIdempotent assume a converter
  that returns `null` or a value of one of the modelled runtime classes. A
  converter that builds a bean or an enum constant has no such class here,
  so those two lemmas say nothing about bean or enum targets; `Coerce`,
  `Get` and the other reads still cover them.
- `toLowerCase(Locale.ROOT)` is modelled for ASCII letters only.
- A `null` source is not modelled: `addSource(null)` makes `build()` throw
  `NullPointerException` in `List.copyOf`
  (src/main/java/com/sparky/config/ConfigManager.java:38), and
  `addSources(null)` throws at once (src/main/java/com/sparky/config/ConfigManager.java:108).
  A `Source` here is never null.
- A `null` path given to `getByPath` or `find` is not modelled, because
  strings here are never null. The code treats it like the empty path.
- Logging is not modelled.
- `asMap()` is the `snapshot` field itself, and `unmodifiableMap` is
  implicit because values are immutable. Later changes to a builder cannot
  reach a built manager, for the same reason.
- `HotReloader.start` is not modelled on its own; it only guards against a
  second start, which the manager never makes.
- Java `Error`s are not modelled. A listener's failure means an
  `Exception`.

=== FILE: configsource.dfy ===
/**
 A configuration source as the manager sees it: a diagnostic name, an
 optional file to watch, and what one call of `load` gave back.
 */
module ConfigSource {
  import opened Wrappers
  import opened Values

  /** Why a `load` failed: an I/O or parse error, or an index out of bounds. */
  datatype LoadError =
    | IoError(message: string)
    | IndexOutOfBounds(index: int, length: nat)

  /** The outcome of one `load` call: a map, Java `null`, or an exception. */
  datatype LoadOutcome =
    | Loaded(entries: Entries)
    | NullMap
    | Failed(error: LoadError)

  /** A source's identity: `name()` and `watchPath()` (empty by default). */
  datatype Source = Source(name: string, watchPath: Option<string>)
}

=== FILE: envlaws.dfy ===
/**
 What the environment source guarantees about the tree it builds: where a
 value lands, what it leaves alone, that every leaf is a string, which
 variables matter, and that a later variable overrides an earlier one.
 */
module EnvLaws {
  import opened Wrappers
  import opened Values
  import opened JavaStrings
  import opened ConfigSource
  import opened EnvConfigSource
  import Maps

  /**
   `insert` leaves alone every path that leaves its spine: a path that agrees
   with `parts` on its first `j` segments and then takes another key finds
   what it found before. Maps met on the spine are reused, so their other
   entries survive; a non-map on the spine had no entries to lose.
   */
  lemma {:induction false} InsertOffSpine(root: Entries, parts: seq<string>, value: string, q: seq<string>, j: nat)
    requires |parts| >= 1
    requires j < |parts| && j < |q|
    requires q[..j] == parts[..j] && q[j] != parts[j]
    ensures Maps.Navigate(Obj(InsertParts(root, parts, value)), q) == Maps.Navigate(Obj(root), q)
    decreases j
  {
    if j == 0 {
      InsertOffSpineHere(root, parts, value, q);
    } else {
      assert q[0] == parts[0] by {
        assert q[..j][0] == q[0] && parts[..j][0] == parts[0];
      }
      var child := SpineChild(root, parts[0]);
      assert q[1..][..j - 1] == parts[1..][..j - 1];
      InsertOffSpine(child, parts[1..], value, q[1..], j - 1);
      InsertOffSpineBelow(root, parts, value, q);
    }
  }

  /** A path that leaves the spine at its first segment sees the old tree. */
  lemma InsertOffSpineHere(root: Entries, parts: seq<string>, value: string, q: seq<string>)
    requires |parts| >= 1 && |q| >= 1 && q[0] != parts[0]
    ensures Maps.Navigate(Obj(InsertParts(root, parts, value)), q) == Maps.Navigate(Obj(root), q)
  {
    var r := InsertParts(root, parts, value);
    assert Lookup(r, q[0]) == Lookup(root, q[0]);
    NavigateCons(Obj(r), q);
    NavigateCons(Obj(root), q);
  }

  /**
   A path that follows the spine for a while: one step down, both trees
   lead to the child `insert` descended into, or the old one leads nowhere.
   */
  lemma InsertOffSpineBelow(root: Entries, parts: seq<string>, value: string, q: seq<string>)
    requires |parts| >= 2 && |q| >= 2 && q[0] == parts[0]
    requires Maps.Navigate(Obj(InsertParts(SpineChild(root, parts[0]), parts[1..], value)), q[1..])
          == Maps.Navigate(Obj(SpineChild(root, parts[0])), q[1..])
    ensures Maps.Navigate(Obj(InsertParts(root, parts, value)), q) == Maps.Navigate(Obj(root), q)
  {
    var r := InsertParts(root, parts, value);
    var child := SpineChild(root, parts[0]);
    var c' := InsertParts(child, parts[1..], value);
    assert r == Put(root, parts[0], Obj(c'));
    assert Lookup(r, parts[0]) == Some(Obj(c'));
    NavigateCons(Obj(r), q);
    NavigateCons(Obj(root), q);
    if !(Lookup(root, parts[0]).Some? && Lookup(root, parts[0]).value.Obj?) {
      NavigateCons(Obj(child), q[1..]);
      if Lookup(root, parts[0]).Some? {
        NavigateCons(Lookup(root, parts[0]).value, q[1..]);
      }
    }
  }

  /** One step of `getByPath`'s loop. */
  lemma NavigateCons(v: Value, q: seq<string>)
    requires |q| >= 1
    ensures Maps.Navigate(v, q)
         == if v.Obj? && Lookup(v.entries, q[0]).Some? && Lookup(v.entries, q[0]).value != Null
            then Maps.Navigate(Lookup(v.entries, q[0]).value, q[1..])
            else None
  {
  }

  /** A map all of whose leaves are strings keeps that shape under `insert`. */
  lemma {:induction false} InsertStringLeaves(root: Entries, parts: seq<string>, value: string)
    requires |parts| >= 1
    requires StringLeaves(Obj(root))
    ensures StringLeaves(Obj(InsertParts(root, parts, value)))
    decreases |parts|
  {
    var child := SpineChild(root, parts[0]);
    var v := if |parts| == 1 then Str(value) else Obj(InsertParts(child, parts[1..], value));
    if |parts| > 1 {
      if Lookup(root, parts[0]).Some? {
        var i :| 0 <= i < |root| && root[i] == (parts[0], Lookup(root, parts[0]).value);
      }
      InsertStringLeaves(child, parts[1..], value);
    }
    PutEntries(root, parts[0], v);
    var r := Put(root, parts[0], v);
    forall i | 0 <= i < |r| ensures StringLeaves(r[i].1) {
      assert r[i] in r;
      if r[i] != (parts[0], v) {
        var i' :| 0 <= i' < |root| && root[i'] == r[i];
      }
    }
  }

  /** `insert` keeps keys unique at every depth. */
  lemma {:induction false} InsertWellFormed(root: Entries, parts: seq<string>, value: string)
    requires |parts| >= 1
    requires WellFormed(Obj(root))
    ensures WellFormed(Obj(InsertParts(root, parts, value)))
    decreases |parts|
  {
    var child := SpineChild(root, parts[0]);
    var v := if |parts| == 1 then Str(value) else Obj(InsertParts(child, parts[1..], value));
    if |parts| > 1 {
      LookupWellFormed(root, parts[0]);
      InsertWellFormed(child, parts[1..], value);
    }
    PutEntries(root, parts[0], v);
    PutUnique(root, parts[0], v);
    var r := Put(root, parts[0], v);
    forall i | 0 <= i < |r| ensures WellFormed(r[i].1) {
      assert r[i] in r;
      if r[i] != (parts[0], v) {
        var i' :| 0 <= i' < |root| && root[i'] == r[i];
      }
    }
  }

  /** A successful `load` builds a well-formed tree whose leaves are all strings. */
  lemma {:induction false} LoadFromShape(root: Entries, prefix: string, env: seq<(string, string)>)
    requires StringLeaves(Obj(root)) && WellFormed(Obj(root))
    ensures LoadFrom(root, prefix, env).Success? ==>
              StringLeaves(Obj(LoadFrom(root, prefix, env).value))
              && WellFormed(Obj(LoadFrom(root, prefix, env).value))
    decreases |env|
  {
    if |env| > 0 {
      match KeyPath(prefix, env[0].0)
      case None =>
        LoadFromShape(root, prefix, env[1..]);
      case Some(path) =>
        var parts := SplitDots(path);
        if |parts| > 0 {
          InsertStringLeaves(root, parts, env[0].1);
          InsertWellFormed(root, parts, env[0].1);
          LoadFromShape(InsertParts(root, parts, env[0].1), prefix, env[1..]);
        }
    }
  }

  /** Every leaf `load` produces is a string, and every map in it has unique keys. */
  lemma LoadShape(src: EnvSource, env: seq<(string, string)>)
    ensures Load(src, env).Success? ==> StringLeaves(Obj(Load(src, env).value))
    ensures Load(src, env).Success? ==> WellFormed(Obj(Load(src, env).value))
  {
    LoadFromShape([], src.prefix, env);
  }

  /** The variables that take part in a load: those with the prefix and something after it. */
  function Contributing(prefix: string, env: seq<(string, string)>): (r: seq<(string, string)>)
    ensures forall e :: e in r <==> e in env && KeyPath(prefix, e.0).Some?
  {
    if |env| == 0 then []
    else (if KeyPath(prefix, env[0].0).Some? then [env[0]] else []) + Contributing(prefix, env[1..])
  }

  /** Only the variables with the prefix matter; all others could be absent. */
  lemma {:induction false} LoadFromOnlyContributing(root: Entries, prefix: string, env: seq<(string, string)>)
    ensures LoadFrom(root, prefix, env) == LoadFrom(root, prefix, Contributing(prefix, env))
    decreases |env|
  {
    if |env| > 0 {
      var rest := Contributing(prefix, env[1..]);
      var c := Contributing(prefix, env);
      match KeyPath(prefix, env[0].0) {
        case Some(path) =>
          assert c == [env[0]] + rest;
          assert c[0] == env[0] && c[1..] == rest;
          match Insert(root, path, env[0].1) {
            case Failure(e) =>
              assert LoadFrom(root, prefix, c) == Failure(e);
            case Success(root') =>
              assert LoadFrom(root, prefix, c) == LoadFrom(root', prefix, rest);
              LoadFromOnlyContributing(root', prefix, env[1..]);
          }
        case None =>
          assert c == rest;
          LoadFromOnlyContributing(root, prefix, env[1..]);
      }
    }
  }

  /** `load` depends only on the variables whose names start with the prefix. */
  lemma LoadOnlyContributing(src: EnvSource, env: seq<(string, string)>)
    ensures Load(src, env) == Load(src, Contributing(src.prefix, env))
  {
    LoadFromOnlyContributing([], src.prefix, env);
  }

  /** One more variable at the end of the iteration is one more `insert` at the end. */
  lemma {:induction false} LoadFromSnoc(root: Entries, prefix: string, env: seq<(string, string)>, name: string, value: string)
    ensures LoadFrom(root, prefix, env + [(name, value)])
         == match LoadFrom(root, prefix, env)
            case Failure(e) => Failure(e)
            case Success(r) =>
              match KeyPath(prefix, name)
              case None => Success(r)
              case Some(path) => Insert(r, path, value)
    decreases |env|
  {
    if |env| == 0 {
      assert [(name, value)][1..] == [];
    } else {
      assert (env + [(name, value)])[1..] == env[1..] + [(name, value)];
      match KeyPath(prefix, env[0].0)
      case None =>
        LoadFromSnoc(root, prefix, env[1..], name, value);
      case Some(path) =>
        match Insert(root, path, env[0].1)
        case Failure(_) =>
        case Success(root') =>
          LoadFromSnoc(root', prefix, env[1..], name, value);
    }
  }

  /**
   The variable iterated last wins: after a successful load, the key path of
   the last variable (if it has one) holds exactly that variable's value,
   whatever earlier variables put there.
   */
  lemma LastVariableWins(src: EnvSource, env: seq<(string, string)>, name: string, value: string)
    requires KeyPath(src.prefix, name).Some?
    ensures Load(src, env + [(name, value)]).Success? ==>
              Maps.GetByPath(Load(src, env + [(name, value)]).value, KeyPath(src.prefix, name).value)
              == Some(Str(value))
  {
    LoadFromSnoc([], src.prefix, env, name, value);
  }

  /** `load` throws exactly when some variable's key path consists of dots only, such as a bare `__`. */
  lemma CrashesIff(prefix: string, name: string)
    ensures Crashes(prefix, name) <==>
              KeyPath(prefix, name).Some?
              && forall i :: 0 <= i < |KeyPath(prefix, name).value| ==> KeyPath(prefix, name).value[i] == '.'
  {
    if KeyPath(prefix, name).Some? {
      SplitDotsEmpty(KeyPath(prefix, name).value);
    }
  }

  /** An example: under prefix `APP_`, `APP_DB__HOST=foo` is `db.host = "foo"`. */
  lemma LoadExample()
    ensures var r := Load(EnvSource("APP_"), [("APP_DB__HOST", "foo"), ("HOME", "/root")]);
            r == Success([("db", Obj([("host", Str("foo"))]))])
            && Maps.GetByPath(r.value, "db.host") == Some(Str("foo"))
  {
    var env := [("APP_DB__HOST", "foo"), ("HOME", "/root")];
    var tree := [("db", Obj([("host", Str("foo"))]))];
    KeyPathExample();
    assert KeyPath("APP_", "HOME") == None by {
      assert "HOME"[..4][0] == 'H';
    }
    SplitExample();
    InsertExample();
    assert Insert([], "db.host", "foo") == Success(tree);
    assert LoadFrom([], "APP_", env) == LoadFrom(tree, "APP_", env[1..]);
    assert env[1..][1..] == [];
    assert LoadFrom(tree, "APP_", env[1..]) == LoadFrom(tree, "APP_", []);
  }

  lemma SplitExample()
    ensures SplitDots("db.host") == ["db", "host"]
  {
    JoinSplitDots(["db", "host"]);
    assert JoinDots(["db", "host"]) == "db.host";
  }

  lemma InsertExample()
    ensures InsertParts([], ["db", "host"], "foo") == [("db", Obj([("host", Str("foo"))]))]
  {
    assert ["db", "host"][1..] == ["host"];
    assert InsertParts([], ["host"], "foo") == [("host", Str("foo"))];
  }
}

=== FILE: envsource.dfy ===
/**
 The environment-variable source: variables whose names carry the prefix
 become nested keys (`APP_DB__HOST` under prefix `APP_` becomes `db.host`)
 holding the variable's value as a string.

 The process environment is an explicit input here: a sequence of
 (name, value) pairs in the order in which the map iterates them.
 */
module EnvConfigSource {
  import opened Wrappers
  import opened Values
  import opened JavaStrings
  import opened ConfigSource
  import Maps

  /** An environment source; its prefix is never null. */
  datatype EnvSource = EnvSource(prefix: string)

  /** `new EnvConfigSource(prefix)`, where `None` is a null prefix. */
  function Create(prefix: Option<string>): (src: EnvSource)
    ensures prefix.None? ==> src.prefix == ""
    ensures prefix.Some? ==> src.prefix == prefix.value
  {
    EnvSource(if prefix.None? then "" else prefix.value)
  }

  /** `new EnvConfigSource()`: no prefix at all. */
  function CreateDefault(): (src: EnvSource)
    ensures src == Create(None) && src == Create(Some(""))
  {
    Create(Some(""))
  }

  /** `name()`: `env`, or `env:` followed by the prefix when there is one. */
  function Name(src: EnvSource): (n: string)
    ensures |n| >= 3 && n[..3] == "env"
    ensures n == "env" <==> src.prefix == ""
    ensures src.prefix != "" ==> |n| == 4 + |src.prefix| && n[3] == ':' && n[4..] == src.prefix
  {
    "env" + (if src.prefix == "" then "" else ":" + src.prefix)
  }

  /** The name identifies the prefix: two sources with the same name read the same variables. */
  lemma NameInjective(a: EnvSource, b: EnvSource)
    ensures Name(a) == Name(b) <==> a == b
    ensures Name(a) == "env" <==> a.prefix == ""
  {
    if Name(a) == Name(b) && a.prefix != "" && b.prefix != "" {
      assert Name(a)[4..] == a.prefix;
      assert Name(b)[4..] == b.prefix;
    }
  }

  /** The source as the manager sees it: environment sources watch no file. */
  function AsSource(src: EnvSource): (s: Source)
    ensures s.watchPath.None?
  {
    Source(Name(src), None)
  }

  /**
   The key path a variable name maps to, or `None` when the variable is
   skipped: it lacks the prefix, or nothing is left once the prefix is
   stripped. Each `__` of the rest becomes a `.` and the result is lower-cased.
   */
  function KeyPath(prefix: string, name: string): (r: Option<string>)
    ensures r.Some? <==> StartsWith(name, prefix) && |name| > |prefix|
    ensures r.Some? ==> |r.value| > 0
  {
    if prefix != "" && !StartsWith(name, prefix) then None
    else
      var trimmed := if prefix == "" then name else name[|prefix|..];
      if trimmed == "" then None
      else Some(ToLowerRoot(ReplaceDoubleUnderscore(trimmed)))
  }

  /**
   The key path is the stripped name with `__` rewritten and lower-cased; it
   has no capital ASCII letter left and no double underscore.
   */
  lemma KeyPathShape(prefix: string, name: string)
    requires KeyPath(prefix, name).Some?
    ensures KeyPath(prefix, name).value == ToLowerRoot(ReplaceDoubleUnderscore(name[|prefix|..]))
    ensures var p := KeyPath(prefix, name).value;
            !HasDoubleUnderscore(p) && forall i :: 0 <= i < |p| ==> !('A' <= p[i] <= 'Z')
  {
    var rest := ReplaceDoubleUnderscore(name[|prefix|..]);
    var p := ToLowerRoot(rest);
    ToLowerRootIdempotent(rest);
    forall i | 0 <= i < |p| - 1 ensures !(p[i] == '_' && p[i + 1] == '_') {
      assert p[i] == LowerChar(rest[i]) && p[i + 1] == LowerChar(rest[i + 1]);
    }
  }

  /** The example of the documentation: `APP_DB__HOST` under prefix `APP_` is `db.host`. */
  lemma KeyPathExample()
    ensures KeyPath("APP_", "APP_DB__HOST") == Some("db.host")
    ensures KeyPath("APP_", "OTHER_HOST") == None
    ensures KeyPath("APP_", "APP_") == None
  {
    assert StartsWith("APP_DB__HOST", "APP_");
    assert "APP_DB__HOST"[4..] == "DB__HOST";
    ReplaceExample();
    LowerExample();
    assert "OTHER_HOST"[..4] != "APP_" by {
      assert "OTHER_HOST"[..4][0] == 'O';
    }
  }

  lemma ReplaceExample()
    ensures ReplaceDoubleUnderscore("DB__HOST") == "DB.HOST"
  {
    assert ReplaceDoubleUnderscore("T") == "T";
    assert ReplaceDoubleUnderscore("ST") == "S" + ReplaceDoubleUnderscore("T");
    assert ReplaceDoubleUnderscore("OST") == "O" + ReplaceDoubleUnderscore("ST");
    assert ReplaceDoubleUnderscore("HOST") == "H" + ReplaceDoubleUnderscore("OST");
    assert ReplaceDoubleUnderscore("__HOST") == "." + ReplaceDoubleUnderscore("HOST");
    assert ReplaceDoubleUnderscore("B__HOST") == "B" + ReplaceDoubleUnderscore("__HOST");
    assert ReplaceDoubleUnderscore("DB__HOST") == "D" + ReplaceDoubleUnderscore("B__HOST");
  }

  lemma LowerExample()
    ensures ToLowerRoot("DB.HOST") == "db.host"
  {
    var lower := ToLowerRoot("DB.HOST");
    assert LowerChar('D') == 'd' && LowerChar('B') == 'b' && LowerChar('.') == '.';
    assert LowerChar('H') == 'h' && LowerChar('O') == 'o';
    assert LowerChar('S') == 's' && LowerChar('T') == 't';
    assert |lower| == 7;
    assert forall i :: 0 <= i < 7 ==> lower[i] == "db.host"[i];
  }

  /** The map `insert` descends into under `key`: the existing one, or a fresh empty one. */
  function SpineChild(root: Entries, key: string): (child: Entries)
    ensures (Lookup(root, key).Some? && Lookup(root, key).value.Obj?) ==> child == Lookup(root, key).value.entries
    ensures !(Lookup(root, key).Some? && Lookup(root, key).value.Obj?) ==> child == []
  {
    match Lookup(root, key) case Some(Obj(m)) => m case _ => []
  }

  /**
   The loop of `insert`: walks `parts` from `root`, reusing the maps it finds
   on the way and replacing anything else by a fresh empty map, and finally
   puts the string value under the last segment.
   */
  function InsertParts(root: Entries, parts: seq<string>, value: string): (r: Entries)
    requires |parts| >= 1
    ensures forall k :: k != parts[0] ==> Lookup(r, k) == Lookup(root, k)
    ensures Maps.Navigate(Obj(r), parts) == Some(Str(value))
    decreases |parts|
  {
    if |parts| == 1 then Put(root, parts[0], Str(value))
    else
      Put(root, parts[0], Obj(InsertParts(SpineChild(root, parts[0]), parts[1..], value)))
  }

  /**
   `insert(root, path, value)`: the path is split the way Java's `split`
   does; a path made only of dots has no segment and the final
   `parts[parts.length - 1]` is out of bounds.
   */
  function Insert(root: Entries, path: string, value: string): (r: Result<Entries, LoadError>)
    ensures r.Failure? <==> |SplitDots(path)| == 0
    ensures r.Failure? ==> r.error == IndexOutOfBounds(-1, 0)
    ensures r.Success? ==> Maps.Navigate(Obj(r.value), SplitDots(path)) == Some(Str(value))
  {
    var parts := SplitDots(path);
    if |parts| == 0 then Failure(IndexOutOfBounds(-1, 0))
    else Success(InsertParts(root, parts, value))
  }

  /** A variable that makes `load` throw: its key path has no segment. */
  predicate Crashes(prefix: string, name: string) {
    KeyPath(prefix, name).Some? && |SplitDots(KeyPath(prefix, name).value)| == 0
  }

  /** The loop of `load`, from the map built so far, over the variables `env`. */
  function LoadFrom(root: Entries, prefix: string, env: seq<(string, string)>): (r: Result<Entries, LoadError>)
    ensures r.Failure? <==> exists i :: 0 <= i < |env| && Crashes(prefix, env[i].0)
    decreases |env|
  {
    if |env| == 0 then Success(root)
    else
      match KeyPath(prefix, env[0].0)
      case None =>
        assert !Crashes(prefix, env[0].0);
        assert forall i :: 1 <= i < |env| ==> env[i] == env[1..][i - 1];
        LoadFrom(root, prefix, env[1..])
      case Some(path) =>
        match Insert(root, path, env[0].1)
        case Failure(e) => Failure(e)
        case Success(root') =>
          var r := LoadFrom(root', prefix, env[1..]);
          assert forall i :: 1 <= i < |env| ==> env[i] == env[1..][i - 1];
          r
  }

  /** `load()`: the variables folded, in order, into an initially empty map. */
  function Load(src: EnvSource, env: seq<(string, string)>): (r: Result<Entries, LoadError>)
    ensures r.Failure? <==> exists i :: 0 <= i < |env| && Crashes(src.prefix, env[i].0)
  {
    LoadFrom([], src.prefix, env)
  }

  /** `load()` as the outcome a reload sees: the map, or the exception. */
  function Outcome(src: EnvSource, env: seq<(string, string)>): (o: LoadOutcome)
    ensures o.Loaded? || o.Failed?
    ensures o.Loaded? <==> Load(src, env).Success?
  {
    match Load(src, env)
    case Success(es) => Loaded(es)
    case Failure(e) => Failed(e)
  }
}

=== FILE: javastrings.dfy ===
/**
 The few `java.lang.String` operations the configuration engine relies on,
 written out with their exact Java behaviour.
 */
module JavaStrings {

  /** `s.startsWith(p)`. */
  predicate StartsWith(s: string, p: string) {
    |p| <= |s| && s[..|p|] == p
  }

  /** Whether `s` contains two adjacent underscores. */
  predicate HasDoubleUnderscore(s: string) {
    exists i :: 0 <= i < |s| - 1 && s[i] == '_' && s[i + 1] == '_'
  }

  /**
   `s.replace("__", ".")`: occurrences are found from left to right and do
   not overlap, so `"___"` becomes `"._"`.
   */
  function ReplaceDoubleUnderscore(s: string): (r: string)
    ensures |r| <= |s|
    ensures |s| > 0 ==> |r| > 0 && (r[0] == '_' <==> s[0] == '_' && !(|s| >= 2 && s[1] == '_'))
    ensures !HasDoubleUnderscore(r)
  {
    if |s| < 2 then s
    else if s[0] == '_' && s[1] == '_' then "." + ReplaceDoubleUnderscore(s[2..])
    else
      var rest := ReplaceDoubleUnderscore(s[1..]);
      var r := [s[0]] + rest;
      assert r[1..] == rest;
      assert !HasDoubleUnderscore(r) by {
        forall i | 0 <= i < |r| - 1 ensures !(r[i] == '_' && r[i + 1] == '_') {
          if i > 0 {
            assert r[i] == rest[i - 1] && r[i + 1] == rest[i];
          }
        }
      }
      r
  }

  /**
   `replace` works from left to right: the first `__` becomes the first new
   `.`, everything before it is kept, and the search resumes after it.
   */
  lemma {:induction false} ReplaceFirstPair(s: string, i: nat)
    requires i + 1 < |s| && s[i] == '_' && s[i + 1] == '_'
    requires forall j :: 0 <= j < i ==> !(s[j] == '_' && s[j + 1] == '_')
    ensures ReplaceDoubleUnderscore(s) == s[..i] + "." + ReplaceDoubleUnderscore(s[i + 2..])
    decreases i
  {
    if i > 0 {
      var t := s[1..];
      ReplaceKeepsFirst(s);
      NoPairInTail(s, i);
      ReplaceFirstPair(t, i - 1);
      assert t[i + 1..] == s[i + 2..];
      var tail := ReplaceDoubleUnderscore(s[i + 2..]);
      assert [s[0]] + t[..i - 1] == s[..i];
      assert [s[0]] + (t[..i - 1] + "." + tail) == ([s[0]] + t[..i - 1]) + "." + tail;
    }
  }

  /** A first character that does not start a `__` is kept as it is. */
  lemma ReplaceKeepsFirst(s: string)
    requires |s| >= 2 && !(s[0] == '_' && s[1] == '_')
    ensures ReplaceDoubleUnderscore(s) == [s[0]] + ReplaceDoubleUnderscore(s[1..])
  {
  }

  lemma NoPairInTail(s: string, i: nat)
    requires 0 < i && i + 1 < |s|
    requires forall j :: 0 <= j < i ==> !(s[j] == '_' && s[j + 1] == '_')
    ensures !(s[0] == '_' && s[1] == '_')
    ensures forall j :: 0 <= j < i - 1 ==> !(s[1..][j] == '_' && s[1..][j + 1] == '_')
  {
    forall j | 0 <= j < i - 1 ensures !(s[1..][j] == '_' && s[1..][j + 1] == '_') {
      assert s[1..][j] == s[j + 1] && s[1..][j + 1] == s[j + 2];
    }
  }

  /** Three underscores: the first two make the dot, the third stays. */
  lemma ReplaceTripleExample()
    ensures ReplaceDoubleUnderscore("a___") == "a._"
  {
    ReplaceFirstPair("a___", 1);
    assert "a___"[3..] == "_";
    assert "a___"[..1] == "a";
  }

  /** Replaces every `.` by `__`: the way back from `ReplaceDoubleUnderscore`. */
  function ExpandDots(s: string): (r: string)
  {
    if |s| == 0 then ""
    else (if s[0] == '.' then "__" else [s[0]]) + ExpandDots(s[1..])
  }

  /** For a name without dots, the `__` to `.` rewriting loses nothing. */
  lemma {:induction false} ExpandReplaceRoundTrip(s: string)
    requires '.' !in s
    ensures ExpandDots(ReplaceDoubleUnderscore(s)) == s
  {
    if |s| < 2 {
      if |s| == 1 {
        assert s[0] in s;
      }
    } else if s[0] == '_' && s[1] == '_' {
      NoDotSuffix(s, 2);
      ExpandReplaceRoundTrip(s[2..]);
      var r := "." + ReplaceDoubleUnderscore(s[2..]);
      assert r[1..] == ReplaceDoubleUnderscore(s[2..]);
      assert s == "__" + s[2..];
    } else {
      NoDotSuffix(s, 1);
      assert s[0] in s;
      ExpandReplaceRoundTrip(s[1..]);
      var r := [s[0]] + ReplaceDoubleUnderscore(s[1..]);
      assert r[1..] == ReplaceDoubleUnderscore(s[1..]);
      assert s == [s[0]] + s[1..];
    }
  }

  /** A suffix of a dot-free string is dot-free. */
  lemma NoDotSuffix(s: string, k: nat)
    requires '.' !in s
    requires k <= |s|
    ensures '.' !in s[k..]
  {
    forall i | 0 <= i < |s[k..]| ensures s[k..][i] != '.' {
      assert s[k..][i] == s[i + k];
      assert s[i + k] in s;
    }
  }

  /** `Character.toLowerCase` restricted to ASCII letters. */
  function LowerChar(c: char): char {
    if 'A' <= c <= 'Z' then (c as int - 'A' as int + 'a' as int) as char else c
  }

  /** `s.toLowerCase(Locale.ROOT)`, for the ASCII letters. */
  function ToLowerRoot(s: string): (r: string)
    ensures |r| == |s|
    ensures forall i :: 0 <= i < |s| ==> r[i] == LowerChar(s[i])
  {
    if |s| == 0 then "" else [LowerChar(s[0])] + ToLowerRoot(s[1..])
  }

  /** Lower-casing leaves no ASCII capital behind, so doing it twice changes nothing more. */
  lemma ToLowerRootIdempotent(s: string)
    ensures forall i :: 0 <= i < |s| ==> !('A' <= ToLowerRoot(s)[i] <= 'Z')
    ensures ToLowerRoot(ToLowerRoot(s)) == ToLowerRoot(s)
  {
  }

  /**
   The pieces of `s` around every `.`, all of them kept: a string with n
   dots has n + 1 pieces.
   */
  function SplitAll(s: string): (parts: seq<string>)
    ensures |parts| >= 1
    ensures forall i :: 0 <= i < |parts| ==> '.' !in parts[i]
  {
    if |s| == 0 then [""]
    else
      var rest := SplitAll(s[1..]);
      if s[0] == '.' then [""] + rest
      else [[s[0]] + rest[0]] + rest[1..]
  }

  /** `String.join(".", parts)`. */
  function JoinDots(parts: seq<string>): string
  {
    if |parts| == 0 then ""
    else if |parts| == 1 then parts[0]
    else parts[0] + "." + JoinDots(parts[1..])
  }

  /** Removes the empty strings at the end of a split, as Java's `split` does. */
  function DropTrailingEmpty(parts: seq<string>): (r: seq<string>)
    ensures |r| <= |parts| && r == parts[..|r|]
    ensures |r| > 0 ==> r[|r| - 1] != ""
    ensures forall i :: |r| <= i < |parts| ==> parts[i] == ""
  {
    if |parts| > 0 && parts[|parts| - 1] == "" then DropTrailingEmpty(parts[..|parts| - 1])
    else parts
  }

  /**
   `s.split("\\.")`. When `s` holds no dot the result is `[s]`, even for the
   empty string; otherwise every piece is kept except the empty ones at the
   end, so `"a."` gives `["a"]`, `"a..b"` gives `["a", "", "b"]` and `"."`
   gives `[]`.
   */
  function SplitDots(s: string): (parts: seq<string>)
    ensures forall i :: 0 <= i < |parts| ==> '.' !in parts[i]
    ensures '.' in s && |parts| > 0 ==> parts[|parts| - 1] != ""
  {
    if '.' !in s then [s] else DropTrailingEmpty(SplitAll(s))
  }

  /** Removes the dots at the end of `s`. */
  function TrimTrailingDots(s: string): string
  {
    if |s| > 0 && s[|s| - 1] == '.' then TrimTrailingDots(s[..|s| - 1]) else s
  }

  /** Joining the pieces again gives back every character of the input. */
  lemma {:induction false} JoinSplitAll(s: string)
    ensures JoinDots(SplitAll(s)) == s
  {
    if |s| > 0 {
      var rest := SplitAll(s[1..]);
      JoinSplitAll(s[1..]);
      if s[0] == '.' {
        assert SplitAll(s) == [""] + rest;
        assert ([""] + rest)[1..] == rest;
        assert s == "." + s[1..];
      } else {
        var parts := [[s[0]] + rest[0]] + rest[1..];
        assert SplitAll(s) == parts;
        if |rest| == 1 {
          assert s == [s[0]] + s[1..];
        } else {
          assert parts[1..] == rest[1..];
          assert JoinDots(rest) == rest[0] + "." + JoinDots(rest[1..]);
          assert s == [s[0]] + s[1..];
        }
      }
    }
  }

  /** Splitting a join of dot-free pieces gives the pieces back. */
  lemma {:induction false} SplitAllJoin(parts: seq<string>)
    requires |parts| >= 1
    requires forall i :: 0 <= i < |parts| ==> '.' !in parts[i]
    ensures SplitAll(JoinDots(parts)) == parts
  {
    if |parts| == 1 {
      SplitAllNoDot(parts[0]);
    } else {
      SplitAllJoin(parts[1..]);
      SplitAllPrepend(parts[0], JoinDots(parts[1..]));
      assert parts == [parts[0]] + parts[1..];
    }
  }

  /** A dot-free string splits into itself. */
  lemma {:induction false} SplitAllNoDot(s: string)
    requires '.' !in s
    ensures SplitAll(s) == [s]
  {
    if |s| > 0 {
      assert s[0] in s;
      NoDotSuffix(s, 1);
      SplitAllNoDot(s[1..]);
      assert s == [s[0]] + s[1..];
    }
  }

  /** A dot-free head followed by a dot adds exactly one piece at the front. */
  lemma {:induction false} SplitAllPrepend(head: string, tail: string)
    requires '.' !in head
    ensures SplitAll(head + "." + tail) == [head] + SplitAll(tail)
  {
    if |head| == 0 {
      assert head + "." + tail == "." + tail;
      assert ("." + tail)[1..] == tail;
    } else {
      assert head[0] in head;
      NoDotSuffix(head, 1);
      SplitAllPrepend(head[1..], tail);
      var s := head + "." + tail;
      assert s[0] == head[0];
      assert s[1..] == head[1..] + "." + tail;
      assert head == [head[0]] + head[1..];
    }
  }

  /** Dropping the empty pieces at the end of a split drops exactly the dots at the end of the input. */
  lemma {:induction false} JoinDropTrailing(parts: seq<string>)
    requires |parts| >= 1
    requires forall i :: 0 <= i < |parts| ==> '.' !in parts[i]
    ensures JoinDots(DropTrailingEmpty(parts)) == TrimTrailingDots(JoinDots(parts))
    decreases |parts|
  {
    var n := |parts|;
    if parts[n - 1] == "" {
      if n == 1 {
        assert DropTrailingEmpty(parts) == DropTrailingEmpty([]);
      } else {
        var init := parts[..n - 1];
        JoinSnoc(init, "");
        assert init + [""] == parts;
        var j := JoinDots(init);
        assert JoinDots(parts) == j + ".";
        assert (j + ".")[..|j + "."| - 1] == j;
        JoinDropTrailing(init);
      }
    } else {
      TrimNonDot(parts);
    }
  }

  /** A join whose last piece is non-empty and dot-free has no dot at its end. */
  lemma TrimNonDot(parts: seq<string>)
    requires |parts| >= 1 && parts[|parts| - 1] != ""
    requires '.' !in parts[|parts| - 1]
    ensures TrimTrailingDots(JoinDots(parts)) == JoinDots(parts)
  {
    var n := |parts|;
    var last := parts[n - 1];
    if n > 1 {
      JoinSnoc(parts[..n - 1], last);
      assert parts[..n - 1] + [last] == parts;
    }
    var j := JoinDots(parts);
    assert j[|j| - 1] == last[|last| - 1];
    assert last[|last| - 1] in last;
  }

  /** Joining with one more piece at the end. */
  lemma {:induction false} JoinSnoc(parts: seq<string>, last: string)
    requires |parts| >= 1
    ensures JoinDots(parts + [last]) == JoinDots(parts) + "." + last
  {
    if |parts| == 1 {
      assert (parts + [last])[1..] == [last];
    } else {
      JoinSnoc(parts[1..], last);
      assert (parts + [last])[1..] == parts[1..] + [last];
    }
  }

  /**
   Joining the result of `split` gives the input back without its trailing
   dots: the split loses nothing else.
   */
  lemma SplitDotsJoin(s: string)
    ensures JoinDots(SplitDots(s)) == TrimTrailingDots(s)
  {
    if '.' !in s {
      if |s| > 0 {
        assert s[|s| - 1] in s;
      }
    } else {
      JoinSplitAll(s);
      JoinDropTrailing(SplitAll(s));
    }
  }

  /**
   A non-empty list of dot-free segments whose last segment is non-empty
   (or that is the single empty segment) survives a join followed by `split`.
   */
  lemma JoinSplitDots(parts: seq<string>)
    requires |parts| >= 1
    requires forall i :: 0 <= i < |parts| ==> '.' !in parts[i]
    requires |parts| >= 2 ==> parts[|parts| - 1] != ""
    ensures SplitDots(JoinDots(parts)) == parts
  {
    var s := JoinDots(parts);
    SplitAllJoin(parts);
    if |parts| >= 2 {
      assert SplitAll(s) == parts;
      assert '.' in s by {
        if '.' !in s {
          SplitAllNoDot(s);
        }
      }
    } else {
      assert s == parts[0];
    }
  }

  /** `split` finds no segment at all exactly when the string is one or more dots. */
  lemma SplitDotsEmpty(s: string)
    ensures |SplitDots(s)| == 0 <==> |s| > 0 && forall i :: 0 <= i < |s| ==> s[i] == '.'
  {
    if |SplitDots(s)| == 0 {
      SplitDotsJoin(s);
      assert TrimTrailingDots(s) == "";
      TrimAllDots(s);
    }
    if |s| > 0 && forall i :: 0 <= i < |s| ==> s[i] == '.' {
      assert s[0] in s;
      JoinSplitAll(s);
      AllEmpty(s);
    }
  }

  /** Trimming the trailing dots leaves nothing only when every character is a dot. */
  lemma {:induction false} TrimAllDots(s: string)
    requires TrimTrailingDots(s) == ""
    ensures forall i :: 0 <= i < |s| ==> s[i] == '.'
  {
    if |s| > 0 {
      TrimAllDots(s[..|s| - 1]);
    }
  }

  /** A string of dots splits into empty pieces only. */
  lemma {:induction false} AllEmpty(s: string)
    requires forall i :: 0 <= i < |s| ==> s[i] == '.'
    ensures forall i :: 0 <= i < |SplitAll(s)| ==> SplitAll(s)[i] == ""
  {
    if |s| > 0 {
      AllEmpty(s[1..]);
    }
  }

  /** The decimal digit of `d`. */
  function DigitChar(d: nat): char
    requires d < 10
  {
    ('0' as int + d) as char
  }

  /** The value of a decimal digit character. */
  function DigitValue(c: char): nat
    requires '0' <= c <= '9'
  {
    c as int - '0' as int
  }

  /** The decimal digits of a natural number, most significant first, without leading zeros. */
  function Digits(n: nat): (r: string)
    ensures |r| >= 1
    ensures forall i :: 0 <= i < |r| ==> '0' <= r[i] <= '9'
    decreases n
  {
    if n < 10 then [DigitChar(n)] else Digits(n / 10) + [DigitChar(n % 10)]
  }

  /** `Long.toString(n)`: an optional minus sign followed by the digits. */
  function IntToString(n: int): string
  {
    if n < 0 then "-" + Digits(-n) else Digits(n)
  }

  /** The number a string of decimal digits denotes. */
  function DigitsValue(s: string): nat
    requires forall i :: 0 <= i < |s| ==> '0' <= s[i] <= '9'
  {
    if |s| == 0 then 0 else DigitsValue(s[..|s| - 1]) * 10 + DigitValue(s[|s| - 1])
  }

  /** An optional minus sign followed by decimal digits. */
  predicate IsDecimal(s: string) {
    |s| >= 1 && (s[0] == '-' || '0' <= s[0] <= '9') && forall i :: 1 <= i < |s| ==> '0' <= s[i] <= '9'
  }

  /** Reads back what `IntToString` writes. */
  function ParseInt(s: string): int
    requires IsDecimal(s)
  {
    if s[0] == '-' then 0 - DigitsValue(s[1..]) as int else DigitsValue(s)
  }

  /** The digits denote the number they were produced from. */
  lemma {:induction false} DigitsRoundTrip(n: nat)
    ensures DigitsValue(Digits(n)) == n
    decreases n
  {
    var d := Digits(n);
    if n < 10 {
      assert d == [DigitChar(n)];
      assert DigitsValue(d) == DigitsValue(d[..0]) * 10 + DigitValue(d[0]);
    } else {
      DigitsRoundTrip(n / 10);
      assert d == Digits(n / 10) + [DigitChar(n % 10)];
      assert d[..|d| - 1] == Digits(n / 10);
      assert DigitValue(d[|d| - 1]) == n % 10;
      assert DigitsValue(d) == DigitsValue(Digits(n / 10)) * 10 + n % 10;
      assert (n / 10) * 10 + n % 10 == n;
    }
  }

  /** `IntToString` loses no information: parsing its output gives the number back. */
  lemma IntToStringRoundTrip(n: int)
    ensures var s := IntToString(n); |s| >= 1 && (s[0] == '-' || '0' <= s[0] <= '9')
    ensures var s := IntToString(n); forall i :: 1 <= i < |s| ==> '0' <= s[i] <= '9'
    ensures ParseInt(IntToString(n)) == n
  {
    if n < 0 {
      var m: nat := -n;
      var d := Digits(m);
      var s := "-" + d;
      assert IntToString(n) == s;
      assert s[0] == '-' && s[1..] == d;
      assert forall i :: 1 <= i < |s| ==> s[i] == d[i - 1];
      DigitsRoundTrip(m);
      assert ParseInt(s) == 0 - DigitsValue(d) as int;
    } else {
      var d := Digits(n);
      assert IntToString(n) == d;
      DigitsRoundTrip(n);
      assert ParseInt(d) == DigitsValue(d);
    }
  }
}

=== FILE: lookuplaws.dfy ===
/**
 Laws of reading a configuration tree: how dot paths compose, what the
 quirks of Java's `split` mean for a lookup, and what coercion guarantees.
 */
module LookupLaws {
  import opened Wrappers
  import opened Values
  import opened JavaStrings
  import opened Maps

  /**
   Navigation composes: following `p + q` is following `p` and then `q`
   from wherever `p` led, and a path that leads nowhere stays nowhere
   however it is extended.
   */
  lemma {:induction false} NavigateConcat(v: Value, p: seq<string>, q: seq<string>)
    ensures Navigate(v, p + q) == match Navigate(v, p) case None => None case Some(w) => Navigate(w, q)
    decreases |p|
  {
    if |p| == 0 {
      assert p + q == q;
    } else {
      assert (p + q)[0] == p[0];
      assert (p + q)[1..] == p[1..] + q;
      if v.Obj? && Lookup(v.entries, p[0]).Some? && Lookup(v.entries, p[0]).value != Null {
        NavigateConcat(Lookup(v.entries, p[0]).value, p[1..], q);
      }
    }
  }

  /**
   A dot path is navigation by its segments: joining dot-free segments
   (the last one non-empty, unless it is the only one) and looking the
   result up walks exactly those segments.
   */
  lemma GetByPathSegments(root: Entries, segs: seq<string>)
    requires |segs| >= 1
    requires forall i :: 0 <= i < |segs| ==> '.' !in segs[i]
    requires |segs| >= 2 ==> segs[|segs| - 1] != ""
    requires segs != [""]
    ensures GetByPath(root, JoinDots(segs)) == Navigate(Obj(root), segs)
  {
    JoinSplitDots(segs);
    if |segs| >= 2 {
      assert JoinDots(segs) == segs[0] + "." + JoinDots(segs[1..]);
      assert |JoinDots(segs)| > 0;
    } else {
      assert JoinDots(segs) == segs[0];
    }
  }

  /**
   Trailing dots are ignored, since `split` drops the empty segments at the
   end: `a.b.` reads `a.b`, and a path of dots only, such as `.`, reads the
   root just as the empty path does.
   */
  lemma TrailingDotsIgnored(root: Entries, path: string)
    ensures GetByPath(root, path) == GetByPath(root, TrimTrailingDots(path))
    ensures GetByPath(root, ".") == Some(Obj(root))
  {
    if '.' !in path {
      NoTrailingDot(path);
    } else {
      DottedSplitTrimmed(path);
    }
    assert SplitDots(".") == [] by {
      SplitDotsEmpty(".");
    }
  }

  /**
   For a path with a dot, trimming the trailing dots leaves a path that
   splits into the same segments, and is empty exactly when there are none.
   */
  lemma DottedSplitTrimmed(path: string)
    requires '.' in path
    ensures SplitDots(path) != [] ==> SplitDots(TrimTrailingDots(path)) == SplitDots(path)
    ensures TrimTrailingDots(path) == "" <==> SplitDots(path) == []
  {
    var parts := SplitDots(path);
    SplitDotsJoin(path);
    if |parts| == 0 {
      assert TrimTrailingDots(path) == JoinDots(parts) == "";
    } else {
      assert parts[|parts| - 1] != "";
      JoinSplitDots(parts);
      if |parts| >= 2 {
        assert JoinDots(parts) == parts[0] + "." + JoinDots(parts[1..]);
      } else {
        assert JoinDots(parts) == parts[0];
      }
      assert JoinDots(parts) != "";
    }
  }

  lemma NoTrailingDot(s: string)
    requires '.' !in s
    ensures TrimTrailingDots(s) == s
  {
    if |s| > 0 {
      assert s[|s| - 1] in s;
    }
  }

  /**
   A key mapped to `null` reads like a missing key: the one-segment path
   finds nothing exactly when the key is absent or holds `null`, and no
   longer path through it finds anything either.
   */
  lemma NullIsAbsent(es: Entries, k: string, rest: seq<string>)
    ensures Navigate(Obj(es), [k]) == None <==> Lookup(es, k).None? || Lookup(es, k) == Some(Null)
    ensures Lookup(es, k).None? || Lookup(es, k) == Some(Null) ==> Navigate(Obj(es), [k] + rest) == None
  {
    assert ([k] + rest)[0] == k && ([k] + rest)[1..] == rest;
    assert [k][1..] == [];
  }

  /**
   Coercing twice is coercing once, provided the converter honours the
   type it is asked for: whatever `coerce` returns is `null` or already of
   the type.
   */
  lemma CoerceIdempotent(v: Value, t: JavaType, convert: Converter)
    requires TypedConverter(convert)
    ensures Coerce(v, t, convert).Success? ==>
              var x := Coerce(v, t, convert).value;
              Coerce(x, t, convert) == Success(x)
              && (x == Null || IsInstance(x, t))
  {
  }

  /**
   A converter that boxes a number as the `Long` it is asked for, and
   rejects everything else, as Jackson does for `convertValue(5, Long.class)`.
   */
  function WidenToLong(v: Value, t: JavaType): (r: Option<Value>)
    ensures r.Some? <==> v.Num? && t == LongType
    ensures r.Some? ==> r.value == Num(v.n, LongBox)
  {
    if v.Num? && t == LongType then Some(Num(v.n, LongBox)) else None
  }

  /**
   Boxing a small number as a `Long` honours the requested type, and after
   it a `getLong` of that number is idempotent.
   */
  lemma WideningIsTyped()
    ensures TypedConverter(WidenToLong)
    ensures Coerce(Num(5, IntegerBox), LongType, WidenToLong) == Success(Num(5, LongBox))
    ensures Coerce(Num(5, LongBox), LongType, WidenToLong) == Success(Num(5, LongBox))
  {
    forall v, t | WidenToLong(v, t).Some? ensures IsInstance(WidenToLong(v, t).value, t) {
      assert t == LongType;
    }
  }

  /**
   A value read as a supertype of its runtime class (an `Integer` read as a
   `Number`, a `String` as a `CharSequence`) comes back as it is, whatever
   the converter would have made of it.
   */
  lemma SupertypeKeepsValue(v: Value, name: string, classes: set<RuntimeClass>, convert: Converter)
    requires v != Null && ClassOf(v) in classes
    ensures Coerce(v, OtherType(name, classes), convert) == Success(v)
    ensures var number := OtherType("Number", {IntegerClass, LongClass, BigIntegerClass});
            Coerce(Num(5432, IntegerBox), number, convert) == Success(Num(5432, IntegerBox))
  {
  }

  /**
   A number read as a `String` is its decimal spelling: it parses back to
   the same number, whatever its box.
   */
  lemma NumberAsString(n: int, box: NumBox, convert: Converter)
    ensures Coerce(Num(n, box), StringType, convert).Success?
    ensures var r := Coerce(Num(n, box), StringType, convert).value;
            r.Str? && ParseInt(r.s) == n
  {
  }
}

=== FILE: manager.dfy ===
/**
 The configuration manager: an ordered list of sources, a published
 snapshot of their deep merge, the change listeners, and the file watcher
 that re-runs the reload.

 The manager is an immutable record; every operation returns the next
 record. What the sources give back when loaded is an explicit input, one
 `LoadOutcome` per source, and so is the behaviour of each listener (whether
 it throws) and the converter of typed reads.
 */
module ConfigManager {
  import opened Wrappers
  import opened Values
  import opened ConfigSource
  import Maps
  import MergeLaws

  /** A registered `Consumer`; registrations are compared by this identity. */
  type ListenerId = nat

  /** The watcher's loop: running, closed, or ended by an exception it does not catch. */
  datatype WatchState = Running | Stopped | Crashed

  /** `reloader`: `null`, or a watcher over a set of paths. */
  datatype Reloader =
    | NoReloader
    | Watcher(paths: seq<string>, state: WatchState)

  datatype Manager = Manager(
    sources: seq<Source>,
    listeners: seq<ListenerId>,
    snapshot: Entries,
    reloader: Reloader)

  /** One listener call of a reload: who was called, with what, and whether it threw. */
  datatype Notification = Notification(listener: ListenerId, snapshot: Entries, threw: bool)

  // ---------------------------------------------------------------------
  // Reload
  // ---------------------------------------------------------------------

  /**
   The loop of `reload` as a left fold: start from the empty map, skip a
   source that gave `null`, deep-merge each loaded map into what was built
   so far, and stop at the first source that throws.
   */
  function FoldMerge(loads: seq<LoadOutcome>): (r: Result<Entries, LoadError>)
    ensures r.Failure? <==> exists i :: 0 <= i < |loads| && loads[i].Failed?
    ensures r.Failure? ==>
              exists i :: 0 <= i < |loads| && loads[i] == Failed(r.error)
                          && forall j :: 0 <= j < i ==> !loads[j].Failed?
    decreases |loads|
  {
    if |loads| == 0 then Success([])
    else
      var init := loads[..|loads| - 1];
      assert forall i :: 0 <= i < |init| ==> init[i] == loads[i];
      match FoldMerge(init)
      case Failure(e) => Failure(e)
      case Success(acc) =>
        assert forall i :: 0 <= i < |init| ==> !loads[i].Failed?;
        match loads[|loads| - 1]
        case Loaded(es) => Success(Maps.DeepMerge(acc, es))
        case NullMap => Success(acc)
        case Failed(e) =>
          assert loads[|loads| - 1] == Failed(e);
          Failure(e)
  }

  /** The calls `reload` makes after publishing: every registration, in order, with the new snapshot. */
  function Notifications(listeners: seq<ListenerId>, snapshot: Entries, throws: (ListenerId, Entries) -> bool)
    : (trace: seq<Notification>)
    ensures |trace| == |listeners|
    ensures forall i :: 0 <= i < |trace| ==>
              trace[i] == Notification(listeners[i], snapshot, throws(listeners[i], snapshot))
  {
    if |listeners| == 0 then []
    else [Notification(listeners[0], snapshot, throws(listeners[0], snapshot))]
         + Notifications(listeners[1..], snapshot, throws)
  }

  /**
   `reload()`. Loads every source in order and folds the maps together; a
   source that throws aborts the reload before anything is published, and
   its exception is returned. Otherwise the merge becomes the snapshot and
   each listener is called once, in registration order; a listener that
   throws is logged and neither stops the later ones nor fails the reload.
   */
  method Reload(m: Manager, loads: seq<LoadOutcome>, throws: (ListenerId, Entries) -> bool)
    returns (next: Manager, trace: seq<Notification>, failure: Option<LoadError>)
    requires |loads| == |m.sources|
    ensures failure.Some? <==> FoldMerge(loads).Failure?
    ensures failure.Some? ==> failure.value == FoldMerge(loads).error && next == m && trace == []
    ensures failure.None? ==> next == m.(snapshot := FoldMerge(loads).value)
    ensures failure.None? ==> trace == Notifications(m.listeners, next.snapshot, throws)
  {
    var merged := MergeLoads(loads);
    match merged {
      case Failure(e) =>
        return m, [], Some(e);
      case Success(result) =>
        next := m.(snapshot := result);
        trace := Notify(m.listeners, result, throws);
        failure := None;
    }
  }

  /**
   The source loop of `reload`: merges the loaded maps in order, skipping
   `null`, and stops at the first source that throws.
   */
  method MergeLoads(loads: seq<LoadOutcome>) returns (r: Result<Entries, LoadError>)
    ensures r == FoldMerge(loads)
  {
    var result: Entries := [];
    var i := 0;
    while i < |loads|
      invariant 0 <= i <= |loads|
      invariant FoldMerge(loads[..i]) == Success(result)
    {
      assert loads[..i + 1][..i] == loads[..i];
      match loads[i] {
        case Failed(e) =>
          assert FoldMerge(loads[..i + 1]) == Failure(e);
          FailurePersists(loads[..i + 1], loads[i + 1..]);
          assert loads[..i + 1] + loads[i + 1..] == loads;
          return Failure(e);
        case NullMap =>
        case Loaded(es) =>
          result := Maps.DeepMerge(result, es);
      }
      i := i + 1;
    }
    assert loads[..i] == loads;
    return Success(result);
  }

  /**
   The listener loop of `reload`: calls every registration in order; a
   listener that throws does not stop the later ones.
   */
  method Notify(listeners: seq<ListenerId>, snapshot: Entries, throws: (ListenerId, Entries) -> bool)
    returns (trace: seq<Notification>)
    ensures trace == Notifications(listeners, snapshot, throws)
  {
    trace := [];
    var j := 0;
    while j < |listeners|
      invariant 0 <= j <= |listeners|
      invariant trace == Notifications(listeners[..j], snapshot, throws)
    {
      var l := listeners[j];
      trace := trace + [Notification(l, snapshot, throws(l, snapshot))];
      assert listeners[..j + 1] == listeners[..j] + [l];
      NotificationsSnoc(listeners[..j], l, snapshot, throws);
      j := j + 1;
    }
    assert listeners[..j] == listeners;
  }

  lemma NotificationsSnoc(ls: seq<ListenerId>, l: ListenerId, snapshot: Entries, throws: (ListenerId, Entries) -> bool)
    ensures Notifications(ls + [l], snapshot, throws)
         == Notifications(ls, snapshot, throws) + [Notification(l, snapshot, throws(l, snapshot))]
  {
  }

  /** A reload that has failed stays failed whatever the later sources give. */
  lemma FailurePersists(loads: seq<LoadOutcome>, more: seq<LoadOutcome>)
    requires FoldMerge(loads).Failure?
    ensures FoldMerge(loads + more) == FoldMerge(loads)
  {
    var all := loads + more;
    var i :| 0 <= i < |loads| && loads[i] == Failed(FoldMerge(loads).error)
             && forall j :: 0 <= j < i ==> !loads[j].Failed?;
    assert all[i] == loads[i];
    assert FoldMerge(all).Failure?;
    var i' :| 0 <= i' < |all| && all[i'] == Failed(FoldMerge(all).error)
              && forall j :: 0 <= j < i' ==> !all[j].Failed?;
    assert forall j :: 0 <= j < i ==> all[j] == loads[j];
    assert i' == i;
  }

  /**
   A source that gave `null` is skipped wherever it stands in the list: the
   reload is the one the other sources alone would give.
   */
  lemma {:induction false} NullMapSkipped(before: seq<LoadOutcome>, after: seq<LoadOutcome>)
    ensures FoldMerge(before + [NullMap] + after) == FoldMerge(before + after)
    decreases |after|
  {
    if |after| == 0 {
      assert before + [NullMap] + after == before + [NullMap];
      assert before + after == before;
      FoldMergeSnoc(before, NullMap);
    } else {
      var last := after[|after| - 1];
      var init := after[..|after| - 1];
      NullMapSkipped(before, init);
      assert before + [NullMap] + after == (before + [NullMap] + init) + [last];
      assert before + after == (before + init) + [last];
      FoldMergeSnoc(before + [NullMap] + init, last);
      FoldMergeSnoc(before + init, last);
    }
  }

  /** One more source at the end of the list is one more step of the fold. */
  lemma FoldMergeSnoc(init: seq<LoadOutcome>, last: LoadOutcome)
    ensures FoldMerge(init + [last])
         == match FoldMerge(init)
            case Failure(e) => Failure(e)
            case Success(acc) =>
              match last
              case Loaded(es) => Success(Maps.DeepMerge(acc, es))
              case NullMap => Success(acc)
              case Failed(e) => Failure(e)
  {
    assert (init + [last])[..|init|] == init;
  }

  /** With a single source, the reload publishes exactly that source's map. */
  lemma SingleSource(es: Entries)
    requires UniqueKeys(es)
    ensures FoldMerge([Loaded(es)]) == Success(es)
  {
    assert [Loaded(es)][..0] == [];
    MergeLaws.MergeLeftUnit(es);
  }

  /**
   Later sources override earlier ones: when the last source sets a path to
   a value that is not a map, a successful reload reads that value there,
   whatever the sources before it hold.
   */
  lemma LaterSourceWins(loads: seq<LoadOutcome>, last: Entries, path: string)
    requires WellFormed(Obj(last))
    requires Maps.GetByPath(last, path).Some? && !Maps.GetByPath(last, path).value.Obj?
    ensures FoldMerge(loads + [Loaded(last)]).Success? ==>
              Maps.GetByPath(FoldMerge(loads + [Loaded(last)]).value, path) == Maps.GetByPath(last, path)
  {
    var all := loads + [Loaded(last)];
    assert all[..|all| - 1] == loads;
    if FoldMerge(loads).Success? {
      MergeLaws.OverrideLaw(FoldMerge(loads).value, last, path);
    }
  }

  /** Sources that load well-formed maps (unique keys at every depth) publish a well-formed snapshot. */
  lemma {:induction false} FoldMergeWellFormed(loads: seq<LoadOutcome>)
    requires forall i :: 0 <= i < |loads| && loads[i].Loaded? ==> WellFormed(Obj(loads[i].entries))
    ensures FoldMerge(loads).Success? ==> WellFormed(Obj(FoldMerge(loads).value))
    decreases |loads|
  {
    if |loads| > 0 {
      var init := loads[..|loads| - 1];
      assert forall i :: 0 <= i < |init| ==> init[i] == loads[i];
      FoldMergeWellFormed(init);
      if FoldMerge(init).Success? && loads[|loads| - 1].Loaded? {
        MergeLaws.MergeWellFormed(FoldMerge(init).value, loads[|loads| - 1].entries);
      }
    }
  }

  // ---------------------------------------------------------------------
  // Construction and the watcher
  // ---------------------------------------------------------------------

  /** `ConfigManager.Builder`: the sources added so far and the hot-reload switch. */
  datatype Builder = Builder(sources: seq<Source>, hotReload: bool)

  /** `builder()`: no source yet, hot reload on. */
  function NewBuilder(): (b: Builder)
    ensures b.sources == [] && b.hotReload
  {
    Builder([], true)
  }

  /** `addSource`: the source goes after those already added. */
  function AddSource(b: Builder, s: Source): (r: Builder)
    ensures r.sources == b.sources + [s] && r.hotReload == b.hotReload
  {
    b.(sources := b.sources + [s])
  }

  /** `addSources`: the collection's sources, in its order, after those already added. */
  function AddSources(b: Builder, ss: seq<Source>): (r: Builder)
    ensures r.sources == b.sources + ss && r.hotReload == b.hotReload
  {
    b.(sources := b.sources + ss)
  }

  /** `hotReload(enabled)`: the switch alone changes. */
  function HotReload(b: Builder, enabled: bool): (r: Builder)
    ensures r.sources == b.sources && r.hotReload == enabled
  {
    b.(hotReload := enabled)
  }

  /** Adding a collection is adding its sources one by one. */
  lemma {:induction false} AddSourcesOneByOne(b: Builder, ss: seq<Source>)
    ensures AddSources(b, ss) == if |ss| == 0 then b else AddSources(AddSource(b, ss[0]), ss[1..])
  {
    if |ss| > 0 {
      assert b.sources + ss == (b.sources + [ss[0]]) + ss[1..];
    }
  }

  /**
   The distinct watch paths of the sources, in the order of their first
   appearance: the `LinkedHashSet` that `startReloader` fills.
   */
  function WatchPaths(sources: seq<Source>): (ps: seq<string>)
    ensures forall p :: p in ps <==> exists i :: 0 <= i < |sources| && sources[i].watchPath == Some(p)
    ensures forall i, j :: 0 <= i < j < |ps| ==> ps[i] != ps[j]
    decreases |sources|
  {
    if |sources| == 0 then []
    else
      var init := sources[..|sources| - 1];
      assert forall i :: 0 <= i < |init| ==> init[i] == sources[i];
      var ps := WatchPaths(init);
      match sources[|sources| - 1].watchPath
      case None => ps
      case Some(p) => if p in ps then ps else ps + [p]
  }

  /**
   The set keeps the order in which paths were first added: more sources
   only add paths at the end.
   */
  lemma {:induction false} WatchPathsPrefix(a: seq<Source>, b: seq<Source>)
    ensures WatchPaths(a) <= WatchPaths(a + b)
    decreases |b|
  {
    if |b| == 0 {
      assert a + b == a;
    } else {
      var init := b[..|b| - 1];
      WatchPathsPrefix(a, init);
      assert (a + b)[..|a + b| - 1] == a + init;
    }
  }

  /**
   `startReloader()`: a watcher is created, and started, only when hot
   reload is on and some source has a watch path.
   */
  function StartReloader(hotReload: bool, sources: seq<Source>): (r: Reloader)
    ensures r.Watcher? <==> hotReload && exists i :: 0 <= i < |sources| && sources[i].watchPath.Some?
    ensures r.Watcher? ==> r.paths == WatchPaths(sources) && r.state == Running
  {
    if !hotReload then NoReloader
    else
      var paths := WatchPaths(sources);
      if |paths| == 0 then
        assert forall i :: 0 <= i < |sources| && sources[i].watchPath.Some? ==> sources[i].watchPath.value in paths;
        NoReloader
      else
        assert paths[0] in paths;
        Watcher(paths, Running)
  }

  /**
   `build()`: the manager copies the builder's sources, has no listener yet,
   reloads once (a failure is thrown out of `build`) and then starts the
   watcher if there is one to start.
   */
  method Build(b: Builder, loads: seq<LoadOutcome>) returns (r: Result<Manager, LoadError>)
    requires |loads| == |b.sources|
    ensures r.Failure? <==> FoldMerge(loads).Failure?
    ensures r.Failure? ==> r.error == FoldMerge(loads).error
    ensures r.Success? ==> r.value == Manager(b.sources, [], FoldMerge(loads).value, StartReloader(b.hotReload, b.sources))
  {
    var m := Manager(b.sources, [], [], NoReloader);
    var next, trace, failure := Reload(m, loads, (l, s) => false);
    if failure.Some? {
      return Failure(failure.value);
    }
    return Success(next.(reloader := StartReloader(b.hotReload, b.sources)));
  }

  /** `close()`: stops the watcher if there is one; nothing else changes. */
  function Close(m: Manager): (r: Manager)
    ensures r.sources == m.sources && r.listeners == m.listeners && r.snapshot == m.snapshot
    ensures m.reloader.NoReloader? ==> r == m
    ensures m.reloader.Watcher? ==> r.reloader == Watcher(m.reloader.paths, Stopped)
  {
    match m.reloader
    case NoReloader => m
    case Watcher(paths, _) => m.(reloader := Watcher(paths, Stopped))
  }

  /** Closing twice is closing once. */
  lemma CloseIdempotent(m: Manager)
    ensures Close(Close(m)) == Close(m)
  {
  }

  /**
   `Path.toAbsolutePath()`, resolved against the process's working
   directory; the working directory is part of the input.
   */
  type AbsolutePath = string -> string

  /** Whether the changed file `c` is one of the watched `paths`, compared as absolute paths. */
  function Watched(paths: seq<string>, abs: AbsolutePath, c: string): (r: bool)
    ensures r <==> exists p :: p in paths && abs(p) == abs(c)
  {
    if |paths| == 0 then false
    else
      assert forall p :: p in paths <==> p == paths[0] || p in paths[1..];
      abs(paths[0]) == abs(c) || Watched(paths[1..], abs, c)
  }

  /**
   A relative watch path matches the absolute path of the event: with
   working directory `/srv`, a change to `/srv/app.yaml` is a change to the
   watched `app.yaml`, and nothing else is.
   */
  lemma RelativeWatchPathExample()
    ensures var abs: AbsolutePath := p => if p == "app.yaml" then "/srv/app.yaml" else p;
            Watched(["app.yaml"], abs, "/srv/app.yaml") && !Watched(["app.yaml"], abs, "/srv/other.yaml")
  {
    var abs: AbsolutePath := p => if p == "app.yaml" then "/srv/app.yaml" else p;
    assert "app.yaml" in ["app.yaml"];
    assert forall p :: p in ["app.yaml"] ==> p == "app.yaml";
  }

  /**
   One batch of file events seen by the watcher's loop. When the loop runs
   and one of the changed files is watched (the two compared as absolute
   paths), it calls `reload`; an I/O error of that reload is logged, but any
   other exception escapes the loop and ends it. A stopped or ended loop
   reacts to nothing.
   */
  method OnWatchBatch(m: Manager, changed: seq<string>, abs: AbsolutePath, loads: seq<LoadOutcome>,
                      throws: (ListenerId, Entries) -> bool)
    returns (next: Manager, trace: seq<Notification>, reloaded: bool)
    requires |loads| == |m.sources|
    ensures reloaded <==> m.reloader.Watcher? && m.reloader.state == Running
                          && exists c, p :: c in changed && p in m.reloader.paths && abs(p) == abs(c)
    ensures !reloaded ==> next == m && trace == []
    ensures reloaded && FoldMerge(loads).Success? ==>
              next == m.(snapshot := FoldMerge(loads).value)
              && trace == Notifications(m.listeners, next.snapshot, throws)
    ensures reloaded && FoldMerge(loads).Failure? && FoldMerge(loads).error.IoError? ==>
              next == m && trace == []
    ensures reloaded && FoldMerge(loads).Failure? && !FoldMerge(loads).error.IoError? ==>
              next == m.(reloader := Watcher(m.reloader.paths, Crashed)) && trace == []
  {
    if !(m.reloader.Watcher? && m.reloader.state == Running) {
      return m, [], false;
    }
    var dirty := false;
    var k := 0;
    while k < |changed|
      invariant 0 <= k <= |changed|
      invariant dirty <==> exists c :: c in changed[..k] && Watched(m.reloader.paths, abs, c)
    {
      assert changed[..k + 1] == changed[..k] + [changed[k]];
      if Watched(m.reloader.paths, abs, changed[k]) {
        assert changed[k] in changed[..k + 1];
        dirty := true;
      }
      k := k + 1;
    }
    assert changed[..k] == changed;
    if !dirty {
      return m, [], false;
    }
    var failure;
    next, trace, failure := Reload(m, loads, throws);
    reloaded := true;
    if failure.Some? && !failure.value.IoError? {
      next := m.(reloader := Watcher(m.reloader.paths, Crashed));
    }
  }

  // ---------------------------------------------------------------------
  // Reads
  // ---------------------------------------------------------------------

  /** Why a read failed. */
  datatype AccessError =
    | Missing(path: string)                  // `ValidationException("Missing config: " + path)`
    | ConversionFailed(cause: Maps.CoercionError)  // the `IllegalArgumentException` of `coerce`
    | NullConversion                         // `Optional.of` of a `null` the converter gave back
    | ConverterRejected(value: Value, target: Maps.JavaType)  // the converter's own exception

  const MissingLead := "Missing config: "

  /** The message of the `ValidationException` for a missing value: it ends with the path asked for. */
  function MissingMessage(path: string): (msg: string)
    ensures |msg| == |MissingLead| + |path|
    ensures msg[..|MissingLead|] == MissingLead && msg[|MissingLead|..] == path
  {
    "Missing config: " + path
  }

  /** `find(path)`: the value at the path in the current snapshot, absent when it is `null`. */
  function Find(m: Manager, path: string): (r: Option<Value>)
    ensures r != Some(Null)
    ensures path == "" ==> r == Some(Obj(m.snapshot))
  {
    Maps.GetByPath(m.snapshot, path)
  }

  /**
   `find(path, type)`: absent when nothing is found, otherwise the found
   value coerced; a coercion that ends in `null` makes `Optional.of` throw.
   */
  function FindAs(m: Manager, path: string, t: Maps.JavaType, convert: Maps.Converter)
    : (r: Result<Option<Value>, AccessError>)
    ensures Find(m, path).None? ==> r == Success(None)
    ensures r == Success(None) ==> Find(m, path).None?
    ensures r.Success? && r.value.Some? ==>
              Find(m, path).Some? && Maps.Coerce(Find(m, path).value, t, convert) == Success(r.value.value)
              && r.value.value != Null
    ensures Find(m, path).Some? && Maps.Coerce(Find(m, path).value, t, convert).Failure? ==>
              r == Failure(ConversionFailed(Maps.Coerce(Find(m, path).value, t, convert).error))
    ensures Find(m, path).Some? && Maps.Coerce(Find(m, path).value, t, convert) == Success(Null) ==>
              r == Failure(NullConversion)
    ensures Find(m, path).Some? ==>
              var c := Maps.Coerce(Find(m, path).value, t, convert);
              c.Success? && c.value != Null ==> r == Success(Some(c.value))
  {
    match Find(m, path)
    case None => Success(None)
    case Some(v) =>
      match Maps.Coerce(v, t, convert)
      case Failure(e) => Failure(ConversionFailed(e))
      case Success(x) => if x == Null then Failure(NullConversion) else Success(Some(x))
  }

  /** `get(path, type)`: the coerced value, or a `Missing` error when nothing is found. */
  function Get(m: Manager, path: string, t: Maps.JavaType, convert: Maps.Converter): (r: Result<Value, AccessError>)
    ensures r == Failure(Missing(path)) <==> Find(m, path).None?
    ensures r.Success? ==>
              Find(m, path).Some? && Maps.Coerce(Find(m, path).value, t, convert) == Success(r.value)
    ensures Find(m, path).Some? ==>
              var c := Maps.Coerce(Find(m, path).value, t, convert);
              r == match c
                   case Failure(e) => Failure(ConversionFailed(e))
                   case Success(x) => if x == Null then Failure(NullConversion) else Success(x)
  {
    match FindAs(m, path, t, convert)
    case Failure(e) => Failure(e)
    case Success(None) => Failure(Missing(path))
    case Success(Some(x)) => Success(x)
  }

  /**
   `getString(path)`: a found value that is not already a string is turned
   into one with `String.valueOf`, so the converter is never consulted.
   */
  function GetString(m: Manager, path: string): (r: Result<Value, AccessError>)
    ensures r.Failure? <==> Find(m, path).None?
    ensures r.Failure? ==> r.error == Missing(path)
    ensures r.Success? ==> r.value.Str?
    ensures Find(m, path).Some? ==>
              var found := Find(m, path).value; r == Success(if found.Str? then found else Str(Maps.Render(found)))
  {
    Get(m, path, Maps.StringType, (v, t) => None)
  }

  /** `getInt(path)`. */
  function GetInt(m: Manager, path: string, convert: Maps.Converter): (r: Result<Value, AccessError>)
    ensures r == Failure(Missing(path)) <==> Find(m, path).None?
    ensures Find(m, path).Some? && Maps.IsInstance(Find(m, path).value, Maps.IntegerType) ==>
              r == Success(Find(m, path).value)
    ensures Find(m, path).Some? ==>
              var c := Maps.Coerce(Find(m, path).value, Maps.IntegerType, convert);
              (c.Failure? ==> r == Failure(ConversionFailed(c.error)))
              && (c.Success? && c.value != Null ==> r == Success(c.value))
              && (c == Success(Null) ==> r == Failure(NullConversion))
  {
    Get(m, path, Maps.IntegerType, convert)
  }

  /** `getLong(path)`. */
  function GetLong(m: Manager, path: string, convert: Maps.Converter): (r: Result<Value, AccessError>)
    ensures r == Failure(Missing(path)) <==> Find(m, path).None?
    ensures Find(m, path).Some? && Maps.IsInstance(Find(m, path).value, Maps.LongType) ==>
              r == Success(Find(m, path).value)
    ensures Find(m, path).Some? ==>
              var c := Maps.Coerce(Find(m, path).value, Maps.LongType, convert);
              (c.Failure? ==> r == Failure(ConversionFailed(c.error)))
              && (c.Success? && c.value != Null ==> r == Success(c.value))
              && (c == Success(Null) ==> r == Failure(NullConversion))
  {
    Get(m, path, Maps.LongType, convert)
  }

  /** `getBool(path)`. */
  function GetBool(m: Manager, path: string, convert: Maps.Converter): (r: Result<Value, AccessError>)
    ensures r == Failure(Missing(path)) <==> Find(m, path).None?
    ensures Find(m, path).Some? && Find(m, path).value.Bool? ==> r == Success(Find(m, path).value)
    ensures Find(m, path).Some? ==>
              var c := Maps.Coerce(Find(m, path).value, Maps.BooleanType, convert);
              (c.Failure? ==> r == Failure(ConversionFailed(c.error)))
              && (c.Success? && c.value != Null ==> r == Success(c.value))
              && (c == Success(Null) ==> r == Failure(NullConversion))
  {
    Get(m, path, Maps.BooleanType, convert)
  }

  /**
   `get(path, typeReference)`: no coercion ladder; a found value goes
   straight to the converter, whose exception is not wrapped and whose
   `null` is returned as it is.
   */
  function GetRef(m: Manager, path: string, t: Maps.JavaType, convert: Maps.Converter): (r: Result<Value, AccessError>)
    ensures r == Failure(Missing(path)) <==> Find(m, path).None?
    ensures Find(m, path).Some? && convert(Find(m, path).value, t).None? ==>
              r == Failure(ConverterRejected(Find(m, path).value, t))
    ensures r.Success? ==> Find(m, path).Some? && convert(Find(m, path).value, t) == Some(r.value)
    ensures Find(m, path).Some? && convert(Find(m, path).value, t).Some? ==>
              r == Success(convert(Find(m, path).value, t).value)
  {
    match Find(m, path)
    case None => Failure(Missing(path))
    case Some(v) =>
      match convert(v, t)
      case None => Failure(ConverterRejected(v, t))
      case Some(x) => Success(x)
  }

  /**
   With a converter that honours types, a typed read gives an instance of
   the requested type: `getInt` gives an `Integer`, `getLong` a `Long`.
   */
  lemma GetTyped(m: Manager, path: string, t: Maps.JavaType, convert: Maps.Converter)
    requires Maps.TypedConverter(convert)
    ensures Get(m, path, t, convert).Success? ==> Maps.IsInstance(Get(m, path, t, convert).value, t)
    ensures t == Maps.IntegerType && Get(m, path, t, convert).Success? ==>
              Get(m, path, t, convert).value == Num(Get(m, path, t, convert).value.n, IntegerBox)
    ensures t == Maps.LongType && Get(m, path, t, convert).Success? ==>
              Get(m, path, t, convert).value == Num(Get(m, path, t, convert).value.n, LongBox)
  {
  }

  /** `getString` is `get(path, String.class)` whatever the converter. */
  lemma GetStringAnyConverter(m: Manager, path: string, convert: Maps.Converter)
    ensures Get(m, path, Maps.StringType, convert) == GetString(m, path)
  {
  }

  // ---------------------------------------------------------------------
  // Listeners
  // ---------------------------------------------------------------------

  /** `addChangeListener`: one more registration, at the end; the same listener may be registered twice. */
  function AddChangeListener(m: Manager, l: ListenerId): (r: Manager)
    ensures r.sources == m.sources && r.snapshot == m.snapshot && r.reloader == m.reloader
    ensures r.listeners == m.listeners + [l]
    ensures multiset(r.listeners) == multiset(m.listeners) + multiset{l}
  {
    m.(listeners := m.listeners + [l])
  }

  /** `List.remove(Object)`: drops the first occurrence of `x`, if any. */
  function RemoveFirst(s: seq<ListenerId>, x: ListenerId): (r: seq<ListenerId>)
    ensures x !in s ==> r == s
    ensures multiset(r) == multiset(s) - multiset{x}
  {
    if |s| == 0 then s
    else if s[0] == x then
      assert s == [s[0]] + s[1..];
      s[1..]
    else
      assert s == [s[0]] + s[1..];
      [s[0]] + RemoveFirst(s[1..], x)
  }

  /**
   What `List.remove(Object)` removes is the first occurrence: the
   registrations before it and after it stay, in order.
   */
  lemma {:induction false} RemoveFirstShape(s: seq<ListenerId>, x: ListenerId, i: nat)
    requires i < |s| && s[i] == x && x !in s[..i]
    ensures RemoveFirst(s, x) == s[..i] + s[i + 1..]
  {
    if i > 0 {
      assert s[0] == s[..i][0];
      assert s[1..][..i - 1] == s[1..i];
      assert s[1..i] == s[..i][1..];
      RemoveFirstShape(s[1..], x, i - 1);
      assert s[..i] == [s[0]] + s[1..][..i - 1];
      assert s[1..][i..] == s[i + 1..];
    }
  }

  /** `removeChangeListener`: one registration of the listener goes; all others stay, in order. */
  function RemoveChangeListener(m: Manager, l: ListenerId): (r: Manager)
    ensures r.sources == m.sources && r.snapshot == m.snapshot && r.reloader == m.reloader
    ensures multiset(r.listeners) == multiset(m.listeners) - multiset{l}
    ensures l !in m.listeners ==> r == m
  {
    m.(listeners := RemoveFirst(m.listeners, l))
  }

  /** Registering a new listener and removing it again leaves the manager as it was. */
  lemma {:induction false} RemoveAfterAdd(m: Manager, l: ListenerId)
    requires l !in m.listeners
    ensures RemoveChangeListener(AddChangeListener(m, l), l) == m
  {
    RemoveFirstSnoc(m.listeners, l);
  }

  lemma {:induction false} RemoveFirstSnoc(s: seq<ListenerId>, x: ListenerId)
    requires x !in s
    ensures RemoveFirst(s + [x], x) == s
  {
    if |s| == 0 {
      assert [x][1..] == [];
    } else {
      assert (s + [x])[1..] == s[1..] + [x];
      RemoveFirstSnoc(s[1..], x);
      assert s == [s[0]] + s[1..];
    }
  }

  /**
   Two files: `db.host` is `h1` with port 5432 in the first
   file and `h2` in the second, so the merge reads `h2` and keeps the port.
   */
  lemma TwoFilesExample()
    ensures var a := [("db", Obj([("host", Str("h1")), ("port", Num(5432, IntegerBox))]))];
            var b := [("db", Obj([("host", Str("h2"))]))];
            FoldMerge([Loaded(a), Loaded(b)])
            == Success([("db", Obj([("host", Str("h2")), ("port", Num(5432, IntegerBox))]))])
  {
    var a := [("db", Obj([("host", Str("h1")), ("port", Num(5432, IntegerBox))]))];
    var b := [("db", Obj([("host", Str("h2"))]))];
    SingleSource(a);
    assert [Loaded(a), Loaded(b)][..1] == [Loaded(a)];
    var inner := Maps.MergeFrom([("host", Str("h1")), ("port", Num(5432, IntegerBox))], [("host", Str("h2"))], 0);
    assert inner == [("host", Str("h2")), ("port", Num(5432, IntegerBox))];
    assert Maps.DeepMerge(a, b) == [("db", Obj(inner))];
  }
}

=== FILE: maps.dfy ===
/**
 The map utilities every read and every reload goes through: the deep merge
 of two configuration maps, dot-path navigation, and type coercion.
 */
module Maps {
  import opened Wrappers
  import opened Values
  import JavaStrings

  /**
   The value `deepMerge` stores under a key of `add` whose value is `v`, when
   the merge so far holds `current` under that key: two maps are merged
   recursively, anything else is replaced by `v`.
   */
  function MergeValue(current: Option<Value>, v: Value): Value
    decreases v, if v.Obj? then |v.entries| + 1 else 0
  {
    match (current, v)
    case (Some(Obj(b)), Obj(a)) => Obj(MergeFrom(b, a, 0))
    case _ => v
  }

  /** The loop of `deepMerge`: folds the entries `add[i..]` into `out`, in order. */
  function MergeFrom(out: Entries, add: Entries, i: nat): Entries
    requires i <= |add|
    decreases Obj(add), |add| - i
  {
    if i == |add| then out
    else
      var k := add[i].0;
      MergeFrom(Put(out, k, MergeValue(Lookup(out, k), add[i].1)), add, i + 1)
  }

  /**
   The loop of `deepMerge` never loses a key, and the keys it adds are
   exactly those of `add[i..]`.
   */
  lemma {:induction false} MergeFromDomain(out: Entries, add: Entries, i: nat, k: string)
    requires i <= |add|
    ensures Lookup(MergeFrom(out, add, i), k).Some? <==>
              Lookup(out, k).Some? || exists j :: i <= j < |add| && add[j].0 == k
    decreases |add| - i
  {
    if i < |add| {
      var key := add[i].0;
      var out' := Put(out, key, MergeValue(Lookup(out, key), add[i].1));
      MergeFromDomain(out', add, i + 1, k);
      var found := Lookup(out', k).Some?;
      assert found <==> Lookup(out, k).Some? || k == key;
      var later := exists j :: i + 1 <= j < |add| && add[j].0 == k;
      assert (exists j :: i <= j < |add| && add[j].0 == k) <==> k == key || later;
    }
  }

  lemma MergeFromDomainAll(base: Entries, add: Entries)
    ensures forall k :: Lookup(MergeFrom(base, add, 0), k).Some? <==>
                          Lookup(base, k).Some? || exists j :: 0 <= j < |add| && add[j].0 == k
  {
    forall k {
      MergeFromDomain(base, add, 0, k);
    }
  }

  /** A key is found in a map exactly when some entry carries it. */
  lemma LookupSomeIff(es: Entries)
    ensures forall k :: Lookup(es, k).Some? <==> exists j :: 0 <= j < |es| && es[j].0 == k
  {
    forall k | Lookup(es, k).Some? ensures exists j :: 0 <= j < |es| && es[j].0 == k {
      var j :| 0 <= j < |Keys(es)| && Keys(es)[j] == k;
      assert es[j].0 == k;
    }
    forall k, j | 0 <= j < |es| && es[j].0 == k ensures Lookup(es, k).Some? {
      assert Keys(es)[j] == k;
    }
  }

  /**
   `Maps.deepMerge(base, add)`: a fresh map, `base` overridden by `add`; its
   keys are those of `base` together with those of `add`.
   */
  function DeepMerge(base: Entries, add: Entries): (r: Entries)
    ensures forall k :: Lookup(r, k).Some? <==> Lookup(base, k).Some? || Lookup(add, k).Some?
  {
    MergeFromDomainAll(base, add);
    LookupSomeIff(add);
    MergeFrom(base, add, 0)
  }

  /**
   The loop of `getByPath`: follows `parts` from `cur`, giving `None` (Java
   `null`) as soon as a value on the way is not a map, or a key is missing
   or mapped to `null`.
   */
  function Navigate(cur: Value, parts: seq<string>): (r: Option<Value>)
    ensures cur != Null ==> r != Some(Null)
    ensures r.Some? && |parts| > 0 ==> cur.Obj?
    decreases |parts|
  {
    if |parts| == 0 then Some(cur)
    else
      match cur
      case Obj(es) =>
        (match Lookup(es, parts[0])
         case Some(next) => if next == Null then None else Navigate(next, parts[1..])
         case None => None)
      case _ => None
  }

  /**
   `Maps.getByPath(root, path)`: the empty path denotes the root itself;
   otherwise the path is split on dots the way Java's `split` does.
   */
  function GetByPath(root: Entries, path: string): (r: Option<Value>)
    ensures path == "" ==> r == Some(Obj(root))
    ensures r != Some(Null)
  {
    if path == "" then Some(Obj(root)) else Navigate(Obj(root), JavaStrings.SplitDots(path))
  }

  /** The runtime class of a non-null value. */
  datatype RuntimeClass =
    | StringClass
    | IntegerClass
    | LongClass
    | BigIntegerClass
    | BooleanClass
    | MapClass
    | ListClass

  function ClassOf(v: Value): RuntimeClass
    requires v != Null
  {
    match v
    case Str(_) => StringClass
    case Num(_, box) =>
      (match box
       case IntegerBox => IntegerClass
       case LongBox => LongClass
       case BigIntegerBox => BigIntegerClass)
    case Bool(_) => BooleanClass
    case List(_) => ListClass
    case Obj(_) => MapClass
  }

  /**
   The Java classes a caller can ask a value to be coerced to. Any other
   class (`Number`, `CharSequence`, `Comparable`, ...) carries the runtime
   classes that are assignable to it.
   */
  datatype JavaType =
    | StringType
    | IntegerType
    | LongType
    | BooleanType
    | MapType
    | ListType
    | ObjectType
    | OtherType(simpleName: string, assignable: set<RuntimeClass>)

  /** `Class.getSimpleName()`. */
  function SimpleName(t: JavaType): string {
    match t
    case StringType => "String"
    case IntegerType => "Integer"
    case LongType => "Long"
    case BooleanType => "Boolean"
    case MapType => "Map"
    case ListType => "List"
    case ObjectType => "Object"
    case OtherType(name, _) => name
  }

  /** The runtime classes whose instances are instances of `t`. */
  function Assignable(t: JavaType): set<RuntimeClass> {
    match t
    case StringType => {StringClass}
    case IntegerType => {IntegerClass}
    case LongType => {LongClass}
    case BooleanType => {BooleanClass}
    case MapType => {MapClass}
    case ListType => {ListClass}
    case ObjectType =>
      {StringClass, IntegerClass, LongClass, BigIntegerClass, BooleanClass, MapClass, ListClass}
    case OtherType(_, classes) => classes
  }

  /** `type.isInstance(value)`: never for `null`, otherwise decided by the runtime class. */
  predicate IsInstance(v: Value, t: JavaType)
    ensures v == Null ==> !IsInstance(v, t)
    ensures v != Null && t == ObjectType ==> IsInstance(v, t)
    ensures t == IntegerType ==> (IsInstance(v, t) <==> v.Num? && v.box == IntegerBox)
    ensures t == LongType ==> (IsInstance(v, t) <==> v.Num? && v.box == LongBox)
    ensures t == StringType ==> (IsInstance(v, t) <==> v.Str?)
    ensures t == BooleanType ==> (IsInstance(v, t) <==> v.Bool?)
    ensures t == MapType ==> (IsInstance(v, t) <==> v.Obj?)
    ensures t == ListType ==> (IsInstance(v, t) <==> v.List?)
    ensures v != Null && t.OtherType? ==> (IsInstance(v, t) <==> ClassOf(v) in t.assignable)
  {
    v != Null && ClassOf(v) in Assignable(t)
  }

  /**
   `String.valueOf(value)`: lists print as `[a, b]` and maps as `{k=v, l=w}`,
   the way `AbstractCollection` and `AbstractMap` print them; a number prints
   its decimal spelling whatever its box.
   */
  function Render(v: Value): (r: string)
    ensures v.Str? ==> r == v.s
    ensures v.Num? ==> JavaStrings.IsDecimal(r) && JavaStrings.ParseInt(r) == v.n
    ensures v.Bool? ==> (r == "true" <==> v.b) && (r == "false" <==> !v.b)
    ensures v.Null? ==> r == "null"
    ensures v.List? ==> |r| >= 2 && r[0] == '[' && r[|r| - 1] == ']'
    ensures v.Obj? ==> |r| >= 2 && r[0] == '{' && r[|r| - 1] == '}'
    decreases v, 1, 0
  {
    match v
    case Str(s) => s
    case Num(n, _) => JavaStrings.IntToStringRoundTrip(n); JavaStrings.IntToString(n)
    case Bool(b) => if b then "true" else "false"
    case Null => "null"
    case List(items) => "[" + RenderItems(v, 0) + "]"
    case Obj(es) => "{" + RenderEntries(v, 0) + "}"
  }

  function RenderItems(v: Value, i: nat): string
    requires v.List? && i <= |v.items|
    decreases v, 0, |v.items| - i
  {
    if i == |v.items| then ""
    else (if i > 0 then ", " else "") + Render(v.items[i]) + RenderItems(v, i + 1)
  }

  function RenderEntries(v: Value, i: nat): string
    requires v.Obj? && i <= |v.entries|
    decreases v, 0, |v.entries| - i
  {
    if i == |v.entries| then ""
    else
      (if i > 0 then ", " else "") + v.entries[i].0 + "=" + Render(v.entries[i].1)
      + RenderEntries(v, i + 1)
  }

  /** `a, b, c`: the pieces joined by a comma and a space, as collections print. */
  function JoinComma(parts: seq<string>): string
  {
    if |parts| == 0 then ""
    else if |parts| == 1 then parts[0]
    else parts[0] + ", " + JoinComma(parts[1..])
  }

  /** The text of each element of a list, in order. */
  function ItemTexts(v: Value): (texts: seq<string>)
    requires v.List?
  {
    seq(|v.items|, i requires 0 <= i < |v.items| => Render(v.items[i]))
  }

  /** The text `key=value` of each entry of a map, in insertion order. */
  function EntryTexts(v: Value): (texts: seq<string>)
    requires v.Obj?
  {
    seq(|v.entries|, i requires 0 <= i < |v.entries| => v.entries[i].0 + "=" + Render(v.entries[i].1))
  }

  /** A list prints as its elements' texts, comma-separated, inside brackets. */
  lemma RenderList(v: Value)
    requires v.List?
    ensures Render(v) == "[" + JoinComma(ItemTexts(v)) + "]"
  {
    if |v.items| > 0 {
      RenderItemsFrom(v, 0);
      assert ItemTexts(v)[0..] == ItemTexts(v);
    }
  }

  /** A map prints as its `key=value` texts, comma-separated, inside braces. */
  lemma RenderMap(v: Value)
    requires v.Obj?
    ensures Render(v) == "{" + JoinComma(EntryTexts(v)) + "}"
  {
    if |v.entries| > 0 {
      RenderEntriesFrom(v, 0);
      assert EntryTexts(v)[0..] == EntryTexts(v);
    }
  }

  /** `String.valueOf` of a list and of a map holding it: `[y, true]` and `{b=[y, true]}`. */
  lemma RenderExample()
    ensures Render(List([Str("y"), Bool(true)])) == "[y, true]"
    ensures Render(Obj([("b", List([Str("y"), Bool(true)]))])) == "{b=[y, true]}"
  {
    var inner := List([Str("y"), Bool(true)]);
    RenderList(inner);
    assert ItemTexts(inner) == ["y", "true"];
    var outer := Obj([("b", inner)]);
    RenderMap(outer);
    assert Render(inner) == "[y, true]";
    assert outer.entries[0].1 == inner;
    assert EntryTexts(outer)[0] == "b" + "=" + Render(inner);
    assert "b" + "=" + "[y, true]" == "b=[y, true]";
    assert |EntryTexts(outer)| == 1;
    assert EntryTexts(outer) == ["b=[y, true]"];
  }

  lemma {:induction false} RenderItemsFrom(v: Value, i: nat)
    requires v.List? && i < |v.items|
    ensures RenderItems(v, i) == (if i > 0 then ", " else "") + JoinComma(ItemTexts(v)[i..])
    decreases |v.items| - i
  {
    var t := ItemTexts(v);
    if i + 1 == |v.items| {
      assert t[i..] == [t[i]];
    } else {
      RenderItemsFrom(v, i + 1);
      assert t[i..][1..] == t[i + 1..];
      assert t[i..][0] == t[i];
    }
  }

  lemma {:induction false} RenderEntriesFrom(v: Value, i: nat)
    requires v.Obj? && i < |v.entries|
    ensures RenderEntries(v, i) == (if i > 0 then ", " else "") + JoinComma(EntryTexts(v)[i..])
    decreases |v.entries| - i
  {
    var t := EntryTexts(v);
    if i + 1 == |v.entries| {
      assert t[i..] == [t[i]];
    } else {
      RenderEntriesFrom(v, i + 1);
      assert t[i..][1..] == t[i + 1..];
      assert t[i..][0] == t[i];
    }
  }

  /**
   The pluggable converter (Jackson's `ObjectMapper.convertValue`): `None`
   when it rejects the value.
   */
  type Converter = (Value, JavaType) -> Option<Value>

  /**
   A converter that honours the requested type: what it gives back is
   `null` or an instance of it (Jackson's `convertValue(value, type)`
   returns a `T`, possibly `null`).
   */
  ghost predicate TypedConverter(convert: Converter) {
    forall v, t :: convert(v, t).Some? ==> convert(v, t).value == Null || IsInstance(convert(v, t).value, t)
  }

  /** The `IllegalArgumentException` a failed coercion raises. */
  datatype CoercionError = CannotConvert(value: Value, target: JavaType)

  const CannotConvertLead := "Cannot convert value '"
  const CannotConvertLink := "' to "

  /** The message of a failed coercion: the value's text, then the type's simple name. */
  function CoercionMessage(e: CoercionError): (msg: string)
    ensures var shown := Render(e.value);
            var lead := |CannotConvertLead|;
            |msg| == lead + |shown| + |CannotConvertLink| + |SimpleName(e.target)|
            && msg[lead..lead + |shown|] == shown
            && msg[|msg| - |SimpleName(e.target)|..] == SimpleName(e.target)
  {
    CannotConvertLead + Render(e.value) + CannotConvertLink + SimpleName(e.target)
  }

  /**
   `Maps.coerce(value, type, mapper)`: `null` stays `null`, a value that is
   already of the type is returned as it is, a `String` target stringifies,
   and everything else is left to the converter.
   */
  function Coerce(v: Value, t: JavaType, convert: Converter): (r: Result<Value, CoercionError>)
    ensures v == Null ==> r == Success(Null)
    ensures IsInstance(v, t) ==> r == Success(v)
    ensures v != Null && t == StringType ==> r.Success? && r.value.Str?
    ensures v != Null && t == StringType && !v.Str? ==> r == Success(Str(Render(v)))
    ensures r.Failure? <==> v != Null && !IsInstance(v, t) && t != StringType && convert(v, t).None?
    ensures v != Null && !IsInstance(v, t) && t != StringType && convert(v, t).Some? ==> r == Success(convert(v, t).value)
    ensures r.Failure? ==> r.error == CannotConvert(v, t)
  {
    if v == Null then Success(Null)
    else if IsInstance(v, t) then Success(v)
    else if t == StringType then Success(Str(Render(v)))
    else
      match convert(v, t)
      case Some(x) => Success(x)
      case None => Failure(CannotConvert(v, t))
  }
}

=== FILE: mergelaws.dfy ===
/**
 What `Maps.deepMerge` guarantees: which keys the result has and in which
 order, what each key holds, the identities it satisfies, and the override
 law that makes later configuration sources win.
 */
module MergeLaws {
  import opened Wrappers
  import opened Values
  import opened Maps

  /** The keys of `ks` that are not in `seen`, in the order of `ks`. */
  function NewKeys(seen: seq<string>, ks: seq<string>): (r: seq<string>)
    ensures forall k :: k in r <==> k in ks && k !in seen
  {
    if |ks| == 0 then []
    else (if ks[0] in seen then [] else [ks[0]]) + NewKeys(seen, ks[1..])
  }

  /** Adding a key to `seen` that does not occur in `ks` filters nothing more. */
  lemma {:induction false} NewKeysExtraSeen(seen: seq<string>, k: string, ks: seq<string>)
    requires k !in ks
    ensures NewKeys(seen + [k], ks) == NewKeys(seen, ks)
  {
    if |ks| > 0 {
      assert ks[0] != k;
      assert k !in ks[1..] by {
        forall j | 0 <= j < |ks[1..]| ensures ks[1..][j] != k {
          assert ks[1..][j] == ks[j + 1];
        }
      }
      NewKeysExtraSeen(seen, k, ks[1..]);
    }
  }

  /** The entries of a unique-key map after position `i` do not repeat the key at `i`. */
  lemma KeyNotLater(add: Entries, i: nat)
    requires UniqueKeys(add)
    requires i < |add|
    ensures add[i].0 !in Keys(add[i + 1..])
    ensures Keys(add[i..]) == [add[i].0] + Keys(add[i + 1..])
  {
    var ks := Keys(add[i + 1..]);
    forall j | 0 <= j < |ks| ensures ks[j] != add[i].0 {
      assert ks[j] == add[i + 1 + j].0;
    }
  }

  /** A suffix of a unique-key map has unique keys. */
  lemma SuffixUnique(add: Entries, i: nat)
    requires UniqueKeys(add)
    requires i <= |add|
    ensures UniqueKeys(add[i..])
  {
    forall a, b | 0 <= a < b < |add[i..]| ensures add[i..][a].0 != add[i..][b].0 {
      assert add[i..][a] == add[i + a] && add[i..][b] == add[i + b];
    }
  }

  /** The key order of the merge loop from position `i` on. */
  lemma {:induction false} MergeFromKeys(out: Entries, add: Entries, i: nat)
    requires UniqueKeys(add)
    requires i <= |add|
    ensures Keys(MergeFrom(out, add, i)) == Keys(out) + NewKeys(Keys(out), Keys(add[i..]))
    decreases |add| - i
  {
    if i < |add| {
      var k := add[i].0;
      var out' := Put(out, k, MergeValue(Lookup(out, k), add[i].1));
      KeyNotLater(add, i);
      MergeFromKeys(out', add, i + 1);
      NewKeysStep(Keys(out), Keys(out'), k, Keys(add[i + 1..]));
    }
  }

  /** One step of the merge loop, seen on keys alone. */
  lemma NewKeysStep(ks: seq<string>, ks': seq<string>, k: string, rest: seq<string>)
    requires ks' == if k in ks then ks else ks + [k]
    requires k !in rest
    ensures ks' + NewKeys(ks', rest) == ks + NewKeys(ks, [k] + rest)
  {
    NewKeysCons(ks, k, rest);
    var n := NewKeys(ks, rest);
    if k in ks {
      assert NewKeys(ks, [k] + rest) == [] + n;
      assert [] + n == n;
    } else {
      NewKeysExtraSeen(ks, k, rest);
      assert NewKeys(ks', rest) == n;
      assert NewKeys(ks, [k] + rest) == [k] + n;
      assert (ks + [k]) + n == ks + ([k] + n);
    }
  }

  /** Filtering a sequence that starts with `k`. */
  lemma NewKeysCons(seen: seq<string>, k: string, rest: seq<string>)
    ensures NewKeys(seen, [k] + rest) == (if k in seen then [] else [k]) + NewKeys(seen, rest)
  {
    assert ([k] + rest)[1..] == rest;
  }

  /**
   The keys of `deepMerge(base, add)`: those of `base` in their order, then
   those new in `add`, in the order of `add`.
   */
  lemma MergeKeys(base: Entries, add: Entries)
    requires UniqueKeys(add)
    ensures Keys(DeepMerge(base, add)) == Keys(base) + NewKeys(Keys(base), Keys(add))
    ensures forall k :: k in Keys(DeepMerge(base, add)) <==> k in Keys(base) || k in Keys(add)
  {
    MergeFromKeys(base, add, 0);
    assert add[0..] == add;
  }

  /** What the merge loop from position `i` on leaves under key `k`. */
  lemma {:induction false} MergeFromLookup(out: Entries, add: Entries, i: nat, k: string)
    requires UniqueKeys(add)
    requires i <= |add|
    ensures Lookup(MergeFrom(out, add, i), k)
         == match Lookup(add[i..], k)
            case None => Lookup(out, k)
            case Some(v) => Some(MergeValue(Lookup(out, k), v))
    decreases |add| - i
  {
    if i < |add| {
      var k' := add[i].0;
      var out' := Put(out, k', MergeValue(Lookup(out, k'), add[i].1));
      MergeFromLookup(out', add, i + 1, k);
      assert add[i..][1..] == add[i + 1..];
      if k == k' {
        KeyNotLater(add, i);
      }
    }
  }

  /**
   Every key of `base` missing from `add` keeps its value; a key of `add`
   holds the recursive merge when both sides are maps and `add`'s value
   otherwise (lists and map-versus-scalar clashes included, never an error).
   */
  lemma MergeLookup(base: Entries, add: Entries, k: string)
    requires UniqueKeys(add)
    ensures Lookup(add, k).None? ==> Lookup(DeepMerge(base, add), k) == Lookup(base, k)
    ensures Lookup(add, k).Some? && Lookup(base, k).Some? && Lookup(base, k).value.Obj?
            && Lookup(add, k).value.Obj?
            ==> Lookup(DeepMerge(base, add), k)
                == Some(Obj(DeepMerge(Lookup(base, k).value.entries, Lookup(add, k).value.entries)))
    ensures Lookup(add, k).Some? && !(Lookup(base, k).Some? && Lookup(base, k).value.Obj?
            && Lookup(add, k).value.Obj?)
            ==> Lookup(DeepMerge(base, add), k) == Lookup(add, k)
  {
    MergeFromLookup(base, add, 0, k);
    assert add[0..] == add;
  }

  /** Merging the empty map changes nothing. */
  lemma MergeRightUnit(m: Entries)
    ensures DeepMerge(m, []) == m
  {
  }

  /** The loop that merges `add[i..]` into a copy of `add[..i]` rebuilds `add`. */
  lemma {:induction false} MergeFromCopy(add: Entries, i: nat)
    requires UniqueKeys(add)
    requires i <= |add|
    ensures MergeFrom(add[..i], add, i) == add
    decreases |add| - i
  {
    if i < |add| {
      var k := add[i].0;
      PrefixLacksKey(add, i);
      assert MergeValue(Lookup(add[..i], k), add[i].1) == add[i].1;
      PutAppends(add[..i], k, add[i].1);
      TakeSnoc(add, i);
      MergeFromCopy(add, i + 1);
    } else {
      assert add[..i] == add;
    }
  }

  /** In a map with unique keys, no entry's key occurs before it. */
  lemma PrefixLacksKey(add: Entries, i: nat)
    requires UniqueKeys(add)
    requires i < |add|
    ensures Lookup(add[..i], add[i].0).None?
  {
    var k := add[i].0;
    forall j | 0 <= j < i ensures Keys(add[..i])[j] != k {
      assert Keys(add[..i])[j] == add[j].0;
    }
  }

  lemma TakeSnoc<T>(s: seq<T>, i: nat)
    requires i < |s|
    ensures s[..i] + [s[i]] == s[..i + 1]
  {
  }

  /** Merging into the empty map copies the other map. */
  lemma MergeLeftUnit(m: Entries)
    requires UniqueKeys(m)
    ensures DeepMerge([], m) == m
  {
    MergeFromCopy(m, 0);
  }

  /** The merge loop over entries `out` already holds leaves `out` as it is. */
  lemma {:induction false} MergeFromStored(out: Entries, add: Entries, i: nat)
    requires WellFormed(Obj(add))
    requires i <= |add|
    requires forall j :: i <= j < |add| ==> Lookup(out, add[j].0) == Some(add[j].1)
    ensures MergeFrom(out, add, i) == out
    decreases Obj(add), |add| - i
  {
    if i < |add| {
      var k := add[i].0;
      var v := add[i].1;
      assert WellFormed(v);
      if v.Obj? {
        forall j | 0 <= j < |v.entries|
          ensures Lookup(v.entries, v.entries[j].0) == Some(v.entries[j].1)
        {
          LookupAt(v.entries, j);
        }
        MergeFromStored(v.entries, v.entries, 0);
      }
      assert MergeValue(Lookup(out, k), v) == v;
      PutShape(out, k, v);
      MergeFromStored(out, add, i + 1);
    }
  }

  /** Merging a well-formed map with itself gives it back. */
  lemma MergeIdempotent(m: Entries)
    requires WellFormed(Obj(m))
    ensures DeepMerge(m, m) == m
  {
    forall j | 0 <= j < |m| ensures Lookup(m, m[j].0) == Some(m[j].1) {
      LookupAt(m, j);
    }
    MergeFromStored(m, m, 0);
  }

  /** The merge loop keeps keys unique at every depth. */
  lemma {:induction false} MergeFromWellFormed(out: Entries, add: Entries, i: nat)
    requires WellFormed(Obj(out)) && WellFormed(Obj(add))
    requires i <= |add|
    ensures WellFormed(Obj(MergeFrom(out, add, i)))
    decreases Obj(add), |add| - i
  {
    if i < |add| {
      var k := add[i].0;
      var v := MergeValue(Lookup(out, k), add[i].1);
      assert WellFormed(add[i].1);
      LookupWellFormed(out, k);
      if Lookup(out, k).Some? && Lookup(out, k).value.Obj? && add[i].1.Obj? {
        MergeFromWellFormed(Lookup(out, k).value.entries, add[i].1.entries, 0);
      }
      assert WellFormed(v);
      var out' := Put(out, k, v);
      PutUnique(out, k, v);
      PutEntries(out, k, v);
      forall j | 0 <= j < |out'| ensures WellFormed(out'[j].1) {
        assert out'[j] in out';
        if out'[j] != (k, v) {
          var j' :| 0 <= j' < |out| && out[j'] == out'[j];
        }
      }
      MergeFromWellFormed(out', add, i + 1);
    }
  }

  /** The merge of two well-formed maps is well formed. */
  lemma MergeWellFormed(base: Entries, add: Entries)
    requires WellFormed(Obj(base)) && WellFormed(Obj(add))
    ensures WellFormed(Obj(DeepMerge(base, add)))
  {
    MergeFromWellFormed(base, add, 0);
  }

  /**
   The override law on segment paths: a non-map value that `b` holds at a
   path is what the merge of anything with `b` holds there.
   */
  lemma {:induction false} OverrideNavigate(a: Entries, b: Entries, parts: seq<string>)
    requires WellFormed(Obj(b))
    requires |parts| >= 1
    requires Navigate(Obj(b), parts).Some? && !Navigate(Obj(b), parts).value.Obj?
    ensures Navigate(Obj(DeepMerge(a, b)), parts) == Navigate(Obj(b), parts)
    decreases |parts|
  {
    var k := parts[0];
    var bv := Lookup(b, k).value;
    MergeLookup(a, b, k);
    LookupWellFormed(b, k);
    if |parts| > 1 && Lookup(a, k).Some? && Lookup(a, k).value.Obj? && bv.Obj? {
      OverrideNavigate(Lookup(a, k).value.entries, bv.entries, parts[1..]);
    }
  }

  /**
   The override law: whatever `a` holds, if `getByPath(b, path)` is a
   non-null, non-map value then `getByPath(deepMerge(a, b), path)` is that value.
   */
  lemma OverrideLaw(a: Entries, b: Entries, path: string)
    requires WellFormed(Obj(b))
    requires GetByPath(b, path).Some? && !GetByPath(b, path).value.Obj?
    ensures GetByPath(DeepMerge(a, b), path) == GetByPath(b, path)
  {
    OverrideNavigate(a, b, JavaStrings.SplitDots(path));
  }

  /**
   `deepMerge` is not associative: folding the sources from the left, as a
   reload does, is the only order that means anything.
   */
  lemma NotAssociative()
    ensures var a := [("x", Obj([("p", Num(1, IntegerBox))]))];
            var b := [("x", Num(5, IntegerBox))];
            var c := [("x", Obj([("q", Num(2, IntegerBox))]))];
            DeepMerge(DeepMerge(a, b), c) != DeepMerge(a, DeepMerge(b, c))
  {
    var a := [("x", Obj([("p", Num(1, IntegerBox))]))];
    var b := [("x", Num(5, IntegerBox))];
    var c := [("x", Obj([("q", Num(2, IntegerBox))]))];
    MergeLookup(a, b, "x");
    var ab := DeepMerge(a, b);
    assert Lookup(ab, "x") == Some(Num(5, IntegerBox));
    MergeLookup(ab, c, "x");
    assert Lookup(DeepMerge(ab, c), "x") == Some(Obj([("q", Num(2, IntegerBox))]));
    MergeLookup(b, c, "x");
    var bc := DeepMerge(b, c);
    assert Lookup(bc, "x") == Some(Obj([("q", Num(2, IntegerBox))]));
    MergeLookup(a, bc, "x");
    var inner := DeepMerge([("p", Num(1, IntegerBox))], [("q", Num(2, IntegerBox))]);
    MergeKeys([("p", Num(1, IntegerBox))], [("q", Num(2, IntegerBox))]);
    assert Keys(inner) == ["p", "q"];
    assert Lookup(DeepMerge(a, bc), "x") == Some(Obj(inner));
    assert |inner| != |[("q", Num(2, IntegerBox))]|;
  }
}

=== FILE: values.dfy ===
/**
 The configuration value tree.

 A Java configuration map (`Map<String, Object>` built as a `LinkedHashMap`)
 is an association list of entries in insertion order. A value inside it is a
 string, a number, a boolean, `null`, a list, or another map.
 */
module Values {
  import opened Wrappers

  /**
   The class a whole number is boxed in. A parser boxes a number as an
   `Integer` when it fits in 32 bits, as a `Long` when it fits in 64 and as
   a `BigInteger` otherwise; a converter may box any number it returns in
   any of them (`convertValue(5, Long.class)` is a `Long`).
   */
  datatype NumBox = IntegerBox | LongBox | BigIntegerBox

  datatype Value =
    | Str(s: string)
    | Num(n: int, box: NumBox)
    | Bool(b: bool)
    | Null
    | List(items: seq<Value>)
    | Obj(entries: Entries)

  /** The entries of one map, in insertion order. */
  type Entries = seq<(string, Value)>

  /** The keys of a map, in insertion order. */
  function Keys(es: Entries): (ks: seq<string>)
    ensures |ks| == |es|
    ensures forall i :: 0 <= i < |es| ==> ks[i] == es[i].0
  {
    if |es| == 0 then [] else [es[0].0] + Keys(es[1..])
  }

  /** A Java map never holds the same key twice. */
  predicate UniqueKeys(es: Entries) {
    forall i, j :: 0 <= i < j < |es| ==> es[i].0 != es[j].0
  }

  /** Every map in the tree, at any depth, has unique keys. */
  predicate WellFormed(v: Value)
    decreases v
  {
    match v
    case Obj(es) => UniqueKeys(es) && forall i :: 0 <= i < |es| ==> WellFormed(es[i].1)
    case List(items) => forall i :: 0 <= i < |items| ==> WellFormed(items[i])
    case _ => true
  }

  /** Every leaf of the tree is a string; the only inner nodes are maps. */
  predicate StringLeaves(v: Value)
    decreases v
  {
    match v
    case Obj(es) => forall i :: 0 <= i < |es| ==> StringLeaves(es[i].1)
    case Str(_) => true
    case _ => false
  }

  /** `Map.get`: the value stored under `k`, or `None` when `k` is absent. */
  function Lookup(es: Entries, k: string): (r: Option<Value>)
    ensures r.Some? <==> k in Keys(es)
    ensures r.Some? ==> (k, r.value) in es
  {
    if |es| == 0 then None
    else if es[0].0 == k then Some(es[0].1)
    else Lookup(es[1..], k)
  }

  /**
   `LinkedHashMap.put`: an existing key keeps its position and gets the new
   value; a new key is appended at the end.
   */
  function Put(es: Entries, k: string, v: Value): (r: Entries)
    ensures Lookup(r, k) == Some(v)
    ensures forall k' :: k' != k ==> Lookup(r, k') == Lookup(es, k')
    ensures Keys(r) == if k in Keys(es) then Keys(es) else Keys(es) + [k]
  {
    if |es| == 0 then [(k, v)]
    else if es[0].0 == k then
      PutFront(es, k, v);
      [(k, v)] + es[1..]
    else
      var rest := Put(es[1..], k, v);
      PutBehind(es, k, v, rest);
      [es[0]] + rest
  }

  /** `put` of the first key: the entry is replaced where it stands. */
  lemma PutFront(es: Entries, k: string, v: Value)
    requires |es| > 0 && es[0].0 == k
    ensures var r := [(k, v)] + es[1..];
            Lookup(r, k) == Some(v)
            && (forall k' :: k' != k ==> Lookup(r, k') == Lookup(es, k'))
            && k in Keys(es) && Keys(r) == Keys(es)
  {
    var r := [(k, v)] + es[1..];
    assert r[0] == (k, v) && r[1..] == es[1..];
    KeysCons((k, v), es[1..]);
    KeysCons(es[0], es[1..]);
    assert es == [es[0]] + es[1..];
    assert Keys(es)[0] == k;
  }

  /** `put` of a key behind the first entry: the first entry stays in front of the rest's `put`. */
  lemma PutBehind(es: Entries, k: string, v: Value, rest: Entries)
    requires |es| > 0 && es[0].0 != k
    requires Lookup(rest, k) == Some(v)
    requires forall k' :: k' != k ==> Lookup(rest, k') == Lookup(es[1..], k')
    requires Keys(rest) == if k in Keys(es[1..]) then Keys(es[1..]) else Keys(es[1..]) + [k]
    ensures var r := [es[0]] + rest;
            Lookup(r, k) == Some(v)
            && (forall k' :: k' != k ==> Lookup(r, k') == Lookup(es, k'))
            && Keys(r) == if k in Keys(es) then Keys(es) else Keys(es) + [k]
  {
    var r := [es[0]] + rest;
    assert r[0] == es[0] && r[1..] == rest;
    KeysCons(es[0], rest);
    KeysCons(es[0], es[1..]);
    assert es == [es[0]] + es[1..];
    assert k in Keys(es) <==> k in Keys(es[1..]);
  }

  /** The keys of a map with one more entry in front. */
  lemma KeysCons(e: (string, Value), es: Entries)
    ensures Keys([e] + es) == [e.0] + Keys(es)
  {
    assert ([e] + es)[1..] == es;
  }

  /** Putting a new key appends it; putting the value already stored changes nothing. */
  lemma PutShape(es: Entries, k: string, v: Value)
    ensures k !in Keys(es) ==> Put(es, k, v) == es + [(k, v)]
    ensures Lookup(es, k) == Some(v) ==> Put(es, k, v) == es
  {
    if k !in Keys(es) {
      PutAppends(es, k, v);
    }
    if Lookup(es, k) == Some(v) {
      PutSameValue(es, k, v);
    }
  }

  lemma {:induction false} PutAppends(es: Entries, k: string, v: Value)
    requires Lookup(es, k).None?
    ensures Put(es, k, v) == es + [(k, v)]
  {
    if |es| > 0 {
      assert es[0].0 != k && Lookup(es[1..], k).None?;
      var tail := Put(es[1..], k, v);
      PutAppends(es[1..], k, v);
      PutCons(es, k, v);
      ConsSnoc(es, (k, v));
    }
  }

  /** Appending behind the first element is appending to the whole sequence. */
  lemma ConsSnoc<T>(s: seq<T>, x: T)
    requires |s| > 0
    ensures [s[0]] + (s[1..] + [x]) == s + [x]
  {
    assert s == [s[0]] + s[1..];
  }

  lemma PutCons(es: Entries, k: string, v: Value)
    requires |es| > 0 && es[0].0 != k
    ensures Put(es, k, v) == [es[0]] + Put(es[1..], k, v)
  {
  }

  lemma {:induction false} PutSameValue(es: Entries, k: string, v: Value)
    requires Lookup(es, k) == Some(v)
    ensures Put(es, k, v) == es
  {
    assert |es| > 0;
    assert es == [es[0]] + es[1..];
    if es[0].0 == k {
      assert es[0] == (k, v);
    } else {
      assert Lookup(es[1..], k) == Some(v);
      PutSameValue(es[1..], k, v);
      PutCons(es, k, v);
    }
  }

  /** Every entry after `put` is the new one or was there before. */
  lemma {:induction false} PutEntries(es: Entries, k: string, v: Value)
    ensures forall e :: e in Put(es, k, v) ==> e == (k, v) || e in es
  {
    if |es| > 0 && es[0].0 != k {
      PutEntries(es[1..], k, v);
      assert Put(es, k, v) == [es[0]] + Put(es[1..], k, v);
    }
  }

  /** `put` keeps the keys of a map unique. */
  lemma PutUnique(es: Entries, k: string, v: Value)
    requires UniqueKeys(es)
    ensures UniqueKeys(Put(es, k, v))
  {
    var r := Put(es, k, v);
    forall i, j | 0 <= i < j < |r| ensures r[i].0 != r[j].0 {
      assert Keys(r)[i] == r[i].0 && Keys(r)[j] == r[j].0;
      if k in Keys(es) {
        assert Keys(es)[i] == es[i].0 && Keys(es)[j] == es[j].0;
      } else {
        assert Keys(r) == Keys(es) + [k];
        if j == |es| {
          assert Keys(es)[i] == es[i].0;
        } else {
          assert Keys(es)[i] == es[i].0 && Keys(es)[j] == es[j].0;
        }
      }
    }
  }

  /** In a map with unique keys, the entry at position `i` is the one `Lookup` finds. */
  lemma {:induction false} LookupAt(es: Entries, i: nat)
    requires UniqueKeys(es)
    requires i < |es|
    ensures Lookup(es, es[i].0) == Some(es[i].1)
  {
    if i > 0 {
      assert es[0].0 != es[i].0;
      assert UniqueKeys(es[1..]) by {
        forall a, b | 0 <= a < b < |es| - 1 ensures es[1..][a].0 != es[1..][b].0 {
          assert es[1..][a] == es[a + 1] && es[1..][b] == es[b + 1];
        }
      }
      LookupAt(es[1..], i - 1);
      assert es[1..][i - 1] == es[i];
    }
  }

  /** A well-formed map's values are themselves well formed. */
  lemma LookupWellFormed(es: Entries, k: string)
    requires WellFormed(Obj(es))
    ensures Lookup(es, k).Some? ==> WellFormed(Lookup(es, k).value)
  {
    if Lookup(es, k).Some? {
      var i :| 0 <= i < |es| && es[i] == (k, Lookup(es, k).value);
    }
  }
}

=== FILE: wrappers.dfy ===
/** Optional values and results shared by the configuration model. */
module Wrappers {

  /** An optional value; `None` plays the part of a Java `null` result. */
  datatype Option<+T> = None | Some(value: T)

  /** Either a value or the error that a Java method would have thrown. */
  datatype Result<+R, +E> = Success(value: R) | Failure(error: E)
}
